=== FILE: README.md ===
# Theocratic-year activity ledger — a Dafny model

This project models the arithmetic core of a small field-service tracker. The
tracker counts time in *theocratic years*. Each year runs from September 1 to
August 31 and has twelve month indexes, 0 = September … 11 = August. Users record
activities: timed preaching, sacred service, and bible courses with a person.
For each month the tracker generates a locked *report*. A report's preaching
minutes become whole hours, and the minutes left over carry into the next
month. A report can be unlocked and generated again later.

The model covers:

- **The theocratic calendar and the report ledger** (`src/lib/reports.ts`).
  Covered: the year and month index of a date, the `[start, end)` range of a
  month, the per-month aggregation loop, and the sequential generation of
  reports with the minute carry.
- **The reports page** (`src/app/informes/page.tsx`). Covered: the next index,
  unlock target selection, the recalculation start, the totals, and the
  list updates after generate, unlock and comment edits.
- **The calendar** (`src/components/CalendarView.tsx`). Covered: the Monday week
  start, the six-week grid, the mapping from rows to events, the lock check,
  the overlap test, the people already booked on a day, and the month metrics.
- **The activity dialog** (`src/components/ActivityModal.tsx`). Covered: field
  initialisation, validation, the written row, and the overlap gate of a save,
  for the preaching and bible-course dialogs and for the sacred-service type
  the calendar passes when such an event is edited.
- **The statistics page** (`src/app/estadisticas/page.tsx`). Covered: the year
  of "now", the minutes a row counts for, the yearly totals, the month
  selection, the months elapsed, and the school-hours list.

Dates are plain calendar triples `Date(year, month0, day)`, with `month0` in 0..11
as `getMonth()` returns it. `new Date(y, m, 1)` normalises an out-of-range
month through Euclidean division (`CivilDate.FirstOfMonth`). Instants are
minutes since 1970-01-01, or the Invalid Date that a NaN field produces.
JavaScript's `Number`, `parseInt`, `split`, `trim`, `String(n)` and truthiness
are written out in `JsText` over `seq<char>`. A NaN is a value of its own there.
Store replies (rows read, the session, the row an update returns, an error
message) are parameters of the functions.

Modules, one per file: `Types` (Option/Result), `JsText`, `CivilDate`, `Entries`
(activity rows), `Reports`, `ReportsPage`, `CalendarView`, `ActivityModal`,
`Statistics`.

## Model

| member | source | states |
|---|---|---|
| Reports.TheocraticYearBase | src/lib/reports.ts:23-28 | the base year is the one whose September-to-September range holds the date, and the date's month index in it is within 0..11 |
| Reports.TheocraticYearUnique | src/lib/reports.ts:23-28 | no other year holds the date: a date lies in year `y` exactly when `y` is its base year |
| Reports.MonthIndexFromDate | src/lib/reports.ts:30-37 | index `i` is the month distance from September of the base year: `new Date(base, 8 + i, 1)` is the first of the date's month |
| Reports.MonthRange | src/lib/reports.ts:39-43 | the range starts on the first of month `8 + i` of the base year and ends on the first of the following month |
| Reports.MonthRangesTile | src/lib/reports.ts:39-43 | consecutive months tile: the end of month `i` is the start of month `i + 1` |
| Reports.InMonthRangeIff | src/lib/reports.ts:39-43 | a date lies in `[start, end)` of month `i` exactly when its month index is `i` |
| Reports.MonthRangeIndexRoundTrip | src/lib/reports.ts:30-43 | the month index of the start of month `i` is `i` again |
| Reports.RowsIn | src/lib/reports.ts:64-72 | the queried rows are exactly the rows dated on or after the month's start and before its end, each as many times as it occurs in the input, so no matching row is lost or counted twice |
| Reports.PreachingIgnoresOtherKinds | src/lib/reports.ts:76-80 | adding rows that are not preaching leaves the preaching minutes unchanged |
| Reports.AggregatePeriod | src/lib/reports.ts:74-81 | the loop's minutes are the preaching minutes of the period (null counts 0), and its count is the number of distinct persons of bible courses with a person |
| Reports.AggregateMonth | src/lib/reports.ts:60-82 | the aggregate of month `monthIndex` is the aggregate over that month's date range |
| Reports.JsRemainder | src/lib/reports.ts:104 | JavaScript `%` is the dividend minus the divisor times the quotient truncated toward zero, so it keeps the dividend's sign and stays below the divisor in magnitude |
| Reports.SplitAsWrittenLosesAnHour | src/lib/reports.ts:103-104 | for negative effective minutes not divisible by 60, the leftover is negative and hours*60 + leftover falls 60 short of effective |
| Reports.SplitMinutes | src/lib/reports.ts:103-104 | whole hours * 60 + leftover == effective, with 0 <= leftover <= 59 |
| Reports.SplitsAgreeWhenNotNegative | src/lib/reports.ts:103-104 | for effective >= 0 the code's floor/`%` split and the corrected split agree |
| Reports.GenerateReport | src/lib/reports.ts:88-128 | no session gives "No autenticado"; a failed read of the year's reports gives the store's error; otherwise 12 reports give "Todos los meses ya están cerrados"; a failed activity query or insert gives the store's error; success exactly when none of these happens, and then the new report has the store's id, index = ledger length, exactly the month's start and end, carry-in 0 or the last carry-out, the month's totals, whole hours and leftover that recombine to the effective minutes (equal to the code's floor/`%` pair whenever those are not negative), carry-out = leftover, and locked = true |
| Reports.GenerateKeepsChain | src/lib/reports.ts:93-120 | appending a generated report to a chained ledger keeps it chained: index = position, and each carry-in equals the previous carry-out |
| Reports.GenerateAllIsChained | src/lib/reports.ts:93-104 | generating repeatedly from an empty ledger yields min(n, 12) reports, chained from carry-in 0 |
| ReportsPage.CanGenerateIffGenerates | src/app/informes/page.tsx:137-138 | the page allows generation exactly when the library, given a session and a store that answers, produces a report (next index < 12) |
| ReportsPage.HandleGenerate | src/app/informes/page.tsx:174-189 | a successful generate appends exactly the report the library returns, locked and with the next index; any failure, including a store error, leaves the list alone; chaining is preserved |
| ReportsPage.UnlockTarget | src/app/informes/page.tsx:93-98 | nothing for an empty list, an alert when the last report is already unlocked, otherwise the last report's id and month index |
| ReportsPage.ReplaceById | src/app/informes/page.tsx:102 | reports with the returned id are replaced, all others are kept, and the length is unchanged |
| ReportsPage.UnlockFailureMessage | src/app/informes/page.tsx:108-116 | "permission" or "denied" gives the RLS-permission text; otherwise "row-level security" gives the RLS text; any other error text is shown unchanged |
| ReportsPage.PermissionErrorsAreExplained | src/app/informes/page.tsx:108-112 | every store error starting "permission denied" is shown as the RLS-permission text |
| ReportsPage.HandleUnlock | src/app/informes/page.tsx:92-123 | on a successful unlock only the returned report is replaced, the recalculation start becomes its month index and the unlocked alert is shown; otherwise the list and start are unchanged; an already unlocked last report alerts so, a store error alerts its friendly message, and an empty list alerts nothing |
| ReportsPage.UnlockTouchesOnlyLast | src/app/informes/page.tsx:93-103 | unlocking the last report changes only its lock flag, keeps the chain, and records its month index |
| ReportsPage.FirstUnlocked | src/app/informes/page.tsx:125-136 | no start when every report is locked, otherwise the smallest month index among unlocked reports |
| ReportsPage.RecalcStartsAtUnlockedMonth | src/app/informes/page.tsx:102-134 | after unlocking a fully locked ledger, the recalculation dialog opens at the month the unlock recorded |
| ReportsPage.RecalcStartIsEarliestUnlocked | src/app/informes/page.tsx:125-136 | on a chained ledger, recalculation starts at the position of the earliest unlocked report |
| ReportsPage.TotalsAccountForEveryMinute | src/app/informes/page.tsx:191-194 | on a chained ledger, the summed whole hours * 60 plus the final leftover equal the year's preaching minutes |
| ReportsPage.FinalLeftoverIsNextCarry | src/app/informes/page.tsx:192-194 | the final leftover shown (0 for an empty year) is what the next report will carry in |
| ReportsPage.EditComments | src/app/informes/page.tsx:913-930 | only the comments of the matching report change (an empty text becomes null); every other field and report stays as it was |
| ReportsPage.EditCommentsKeepsChain | src/app/informes/page.tsx:924-930 | a comment edit keeps a chained ledger chained |
| CalendarView.StartOfWeek | src/components/CalendarView.tsx:45-53 | the result is a Monday 0–6 days on or before the day; a Sunday goes back 6 |
| CalendarView.MonthGrid | src/components/CalendarView.tsx:192-205 | 6 weeks of 7 consecutive days from the Monday on or before the 1st; the 1st is in week 0 |
| CalendarView.MonthFitsGrid | src/components/CalendarView.tsx:192-205 | every day of the month has a cell in the grid |
| CalendarView.ParseTime | src/components/CalendarView.tsx:1091-1096 | null for a missing or empty time; otherwise `Number` of the hour field and of the minute field, which defaults to "0" |
| CalendarView.ParseTimeOfClockText | src/components/CalendarView.tsx:1091-1096 | a stored `HH:MM:SS` reads back as its hour and minute |
| CalendarView.ToEvent | src/components/CalendarView.tsx:1098-1161 | id, kind, person and minutes (null as 0) are carried over; a bible course runs from noon of its date to one minute later with its time hidden; a preaching or sacred-service row with both times starts at its parsed start and ends at its parsed end, or at start + 1 minute when that end is not after the start; every other row is all day, from 00:00 to 23:59 of its date; whenever both instants are valid the start precedes the end |
| CalendarView.TimedEventsAreValid | src/components/CalendarView.tsx:1105-1124 | with numeric start and end times every mapped event has end > start |
| CalendarView.LoadedMonthIndexes | src/components/CalendarView.tsx:1176-1178 | the loaded list holds the month index of every report of the viewed year, locked or not |
| CalendarView.UnlockedMonthReadsLocked | src/components/CalendarView.tsx:1176-1191 | an unlocked September report still makes a September day read as locked |
| CalendarView.LockedMonthIndexes | src/components/CalendarView.tsx:1176-1178 | corrected load: an index is listed exactly when a locked report carries it |
| CalendarView.IsDateLockedAsWritten | src/components/CalendarView.tsx:1186-1191 | false for no date; otherwise true iff some listed index names a month of the date's own theocratic year that holds the date, whatever year the list was loaded for |
| CalendarView.AdjacentYearDayReadsLocked | src/components/CalendarView.tsx:1176-1191 | September 1, 2025 has a cell in the 42-day August 2025 grid, and reads as locked when the loaded 2024 list holds index 0, though the corrected check says it is not |
| CalendarView.IsDateLocked | src/components/CalendarView.tsx:1186-1191 | corrected check: true iff a listed month 0..11 of the loaded year holds the date |
| CalendarView.LockChecksAgreeWithinYear | src/components/CalendarView.tsx:1186-1191 | for a date of the loaded year and an all-locked ledger, the written and corrected checks agree |
| CalendarView.UnlockOpensMonth | src/components/CalendarView.tsx:1176-1191 | after the reports page unlocks the last report, exactly that month stops reading as locked |
| CalendarView.ExistingCoursePersonIds | src/components/CalendarView.tsx:1243-1254 | none without a dialog date; otherwise exactly the persons of bible courses on the same day, other than the edited event |
| CalendarView.EditedEventExcluded | src/components/CalendarView.tsx:1243-1254 | a person booked only by the event being edited is not reported |
| CalendarView.ValidateOverlap | src/components/CalendarView.tsx:1314-1332 | true iff some timed preaching or sacred-service event with another id (an empty id skips none) has start < e.end and end > e.start |
| CalendarView.AdjacentRangesDoNotOverlap | src/components/CalendarView.tsx:1314-1332 | a range that ends exactly where an event starts does not overlap it |
| CalendarView.Metrics | src/components/CalendarView.tsx:1337-1354 | the minutes of preaching events starting in the viewed month, and the number of distinct persons of bible courses in it |
| ActivityModal.InitialForm | src/components/ActivityModal.tsx:65-86 | a new record starts empty (30 minutes for a course); an edit copies each stored field that is present (times only in the preaching dialog, cut to `HH:MM`, minutes as text that parses back) and otherwise keeps the previous text |
| ActivityModal.ClockMinutes | src/components/ActivityModal.tsx:93-96 | `h*60 + (m || 0)` is a number exactly when the hour field is numeric |
| ActivityModal.ClockMinutesOfText | src/components/ActivityModal.tsx:93-96 | a time input `HH:MM` reads as h*60 + m |
| ActivityModal.Validate | src/components/ActivityModal.tsx:89-105 | a missing date fails first; preaching needs both times and no non-positive difference; a bible course or sacred service needs minutes (else "Minutos requeridos") that parse to a positive integer (else "Minutos inválidos"); each failing rule gives its own message; no error exactly when every rule passes |
| ActivityModal.AcceptedRangeIsPositive | src/components/ActivityModal.tsx:91-98 | two time inputs pass exactly when the end is later in the day than the start |
| ActivityModal.BuildPayload | src/components/ActivityModal.tsx:133-146 | preaching carries the times with ":00" added and no minutes; a bible course or sacred service carries its own kind, the parsed minutes and the person only when one is chosen, and no times; the trimmed title is kept only when not blank |
| ActivityModal.SavedTimeReopens | src/components/ActivityModal.tsx:70-71 | a saved start time reopens in the edit dialog as the text that was typed |
| ActivityModal.AcceptedCourseMinutesArePositive | src/components/ActivityModal.tsx:99-103 | accepted bible-course or sacred-service minutes reach the payload as a positive number |
| ActivityModal.RangeEnd | src/components/ActivityModal.tsx:156-171 | the instant is valid exactly when the hour and minute fields are numeric (a missing minute field is NaN) |
| ActivityModal.RangeEndOfText | src/components/ActivityModal.tsx:156-171 | a time input `HH:MM` builds the instant h hours and m minutes after midnight of the dialog's day |
| ActivityModal.HandleSave | src/components/ActivityModal.tsx:107-203 | a validation error, a missing session or a reported overlap aborts with its message and writes nothing; otherwise create inserts the built payload, edit with an id updates that record with it, a refused write shows the store's message, and the dialog closes without a write exactly when every check passes on an edit without an id |
| ActivityModal.MinutesDialogsIgnoreOverlap | src/components/ActivityModal.tsx:148-155 | a bible-course or sacred-service save ends the same whatever the overlap predicate answers |
| ActivityModal.SavedRangeIsOrdered | src/components/ActivityModal.tsx:148-181 | an inserted preaching range of two time inputs has start < end on the dialog's day |
| Statistics.GetTheocraticYear | src/app/estadisticas/page.tsx:53-59 | the start year agrees with the library's base year; the range runs from September 1 to the next September 1, exclusive, and holds "now" |
| Statistics.Coerce | src/app/estadisticas/page.tsx:134-143 | stored minutes when present; otherwise, with both times numeric, max(0, end − start) in minutes; with a non-numeric time, or a missing one, 0 |
| Statistics.TimeValueOfClockText | src/app/estadisticas/page.tsx:137-139 | a stored `HH:MM:00` reads as h*60 + m |
| Statistics.SavedPreachingCountsItsRange | src/app/estadisticas/page.tsx:134-143 | a preaching row written by the activity dialog counts its positive range length, though it stores no minutes |
| Statistics.TotalsPartitionRows | src/app/estadisticas/page.tsx:144-149 | the preaching, sacred-service and remaining minutes add up to all minutes: the two filters are disjoint |
| Statistics.SacredRowsLeavePreachingTotal | src/app/estadisticas/page.tsx:144-149 | sacred-service rows never change the preaching total |
| Statistics.ClampMonthIndex | src/app/estadisticas/page.tsx:94-100 | the selected index is always in 0..11, and an index already in range is kept |
| Statistics.SelectedMonthIndex | src/app/estadisticas/page.tsx:251-259 | a record's selected month is its clamped month index from the start of the year |
| Statistics.SchoolDate | src/app/estadisticas/page.tsx:278-282 | the saved date is the first day of the month `idx` months after the year's start |
| Statistics.SchoolMonthRoundTrip | src/app/estadisticas/page.tsx:240-282 | reopening and saving a school record of the current year keeps its month; "now" is selected unclamped |
| Statistics.MonthsElapsed | src/app/estadisticas/page.tsx:155-164 | the loop counts the month starts before the year's end and not after "now" (the closed form) |
| Statistics.ElapsedCountCountsMonthStarts | src/app/estadisticas/page.tsx:155-164 | month `k` is counted exactly when its first day is not after "now", so the count lies in 0..12 |
| Statistics.ElapsedInOwnYear | src/app/estadisticas/page.tsx:155-164 | within its own year, "now" has seen its month index plus one months |
| Statistics.ValidateSchool | src/app/estadisticas/page.tsx:266-268 | a blank title fails with "Título requerido", else a non-integer or non-positive hours value fails; no error exactly when both rules pass |
| Statistics.SortByDate | src/app/estadisticas/page.tsx:328-331 | the result is ordered latest school date first and is a permutation of the input |
| Statistics.AfterSchoolSave | src/app/estadisticas/page.tsx:290-332 | after an update the reply replaces the edited row; after an insert it is added; either way the list is sorted latest first with no row lost or invented |
| Statistics.DeleteSchoolRow | src/app/estadisticas/page.tsx:350 | exactly the rows with another id remain; sorted input stays sorted |
| Statistics.DeleteDistributes | src/app/estadisticas/page.tsx:350 | deleting from two lists joined is deleting from each and joining, so with `DeleteSingle` the result is the kept rows in their order and number |
| Statistics.DeleteSingle | src/app/estadisticas/page.tsx:350 | a single row is kept exactly when its id differs from the deleted one |
| Statistics.DeleteIdempotent | src/app/estadisticas/page.tsx:350 | deleting the same id twice removes nothing more |
| JsText.NumberOf | src/components/CalendarView.tsx:1095 | `Number(text)` is a number exactly for all-digit text (the empty text gives 0), and NaN otherwise |
| JsText.ParseInt | src/components/ActivityModal.tsx:101 | `parseInt` gives a number exactly when a digit follows the leading white space and an optional sign |
| JsText.ParseIntOfIntText | src/components/ActivityModal.tsx:75 | `parseInt(String(n))` gives `n` back |
| JsText.Split | src/components/CalendarView.tsx:1094 | the parts hold no separator and join back to the text |
| JsText.Trim | src/components/ActivityModal.tsx:146 | the result is a slice with no white space at either end, and everything cut off is white space |
| JsText.TrimEmptyIff | src/components/ActivityModal.tsx:146 | a text trims to nothing exactly when it is all white space |

## Left out

- Store access: every query, insert, update, RPC, auth session and realtime channel. Rows read, the session and each write's reply or error are parameters.
- `fetchReports` (src/lib/reports.ts:45-52) is a store query; the ledger it returns, ordered by month index, is a parameter, and its failure is the `ReadFailed` case of `Reports.StoreFailure`.
- `unlockReport` and `recalcAndLockFrom` are not part of this model: src/lib/reports.ts does not define them. The unlock reply is a parameter of `ReportsPage.HandleUnlock`, and nothing models the recalculation itself.
- Time zones and daylight saving: `toISOString().slice(0, 10)`, `setHours` and noon anchoring. Dates are calendar triples, and an instant is local minutes.
- `CivilDate.CivilOfDay` (the calendar date of a day number) is used by the month tests of the calendar metrics, but nothing proves it inverts `DayNumber`.
- The parsing of `activity_date` text into a date (src/components/CalendarView.tsx:1089). Rows carry a date.
- `Number` is modelled only for texts of decimal digits, plus the empty text. Signs, decimals, exponents and white space inside `Number(...)` read as NaN here.
- Statistics.ValidateSchool: `hours` is a finite real, so NaN input is not modelled.
- Statistics.SortByDate: `localeCompare` of `YYYY-MM-DD` texts is modelled as date order. Sortedness and permutation are proved; the stability of the browser sort is not.
- Floating-point hour displays, goal percentages and bars, the annual goal constants, PDF export, localStorage, theming and rendering.
- Event titles, colours and labels (src/components/CalendarView.tsx:1126-1160). Only the time range, kind, minutes and person are modelled.
- The comment and auto-summary options passed to generation (src/app/informes/page.tsx:177-180). The library ignores them.
- CalendarView.LoadedMonthIndexes: takes the fetched reports. The empty list used without a session (src/components/CalendarView.tsx:1172-1175) is the same function applied to no reports.
- ReportsPage.EditComments: models the successful comment save only. A refused update leaves the list unchanged and shows an alert, which is not modelled.
- The school-hours save's session check and its message for the store's check-constraint error (src/app/estadisticas/page.tsx:271-275 and lines 297-302). The list functions take the stored reply.
- Reports.GenerateReport: uses the corrected split (`SplitMinutes`), not the code's `Math.floor`/`%` pair. Its contract states the two agree whenever the effective minutes are not negative, which holds while no stored minutes are negative. So `GenerateKeepsChain`, `GenerateAllIsChained` and `ReportsPage.TotalsAccountForEveryMinute` describe the code only under that condition.
- Reports.RowsIn: the query bounds come from `toISOString().slice(0, 10)` of local midnights (src/lib/reports.ts:65-66). The model takes them as the local dates, which is right only at UTC offsets of 0 or less. East of UTC the query takes in the previous month's last day and drops the month's own last day.
- Reports.AggregateMonth: inherits the time-zone condition of `Reports.RowsIn`.
- Statistics.SchoolMonthRoundTrip: holds only at UTC offset 0. `new Date(rec.school_date)` (src/app/estadisticas/page.tsx:255) reads the stored text as UTC midnight. The saved date is the UTC date of a local midnight (src/app/estadisticas/page.tsx:283). Either way the record's month moves back by one at any other offset, and the model has no time zones.
- Reports.SplitMinutes: the model uses the floor-consistent split rather than the code's, and the two differ only for negative effective minutes (see Findings).

## Findings

| source | as written | input that shows it | evidently intended | confidence | as-written member | corrected member |
|---|---|---|---|---|---|---|
| src/lib/reports.ts:103-104 | `Math.floor(effective / 60)` paired with JavaScript's truncating `%` | effective = −5 gives whole_hours −1 and leftover −5, so hours*60 + leftover = −65 ≠ −5 | a leftover in 0..59 with hours*60 + leftover == effective | low (needs negative stored minutes); not executed | Reports.SplitAsWrittenLosesAnHour | Reports.SplitMinutes |
| src/components/CalendarView.tsx:1186-1191 | the date's month index in its own theocratic year is looked up in indexes loaded for the viewed date's year | viewing August 2025 (year 2024) with a September 2024 report: the grid cell for 2025-09-01 reads as locked | only dates of the loaded year can be locked | medium; not executed | CalendarView.AdjacentYearDayReadsLocked | CalendarView.IsDateLocked |
| src/components/CalendarView.tsx:1178 | the lock list holds the month index of every report, locked or not | after the reports page unlocks the September 2024 report, 2024-09-10 still reads locked and its activities cannot be added or edited (lines 1229, 1264) | only locked reports lock their month, so an unlocked month opens for editing | medium; not executed | CalendarView.UnlockedMonthReadsLocked | CalendarView.LockedMonthIndexes |

=== FILE: activity_modal.dfy ===
/** The activity dialog: its field initialisation, the validation of the form,
    the shape of the row it writes, and the gate that keeps a preaching range
    from overlapping another one before anything is written. */
module ActivityModal {

  import opened Types
  import opened JsText
  import opened CivilDate
  import opened Entries

  /** The kinds of record the dialog is opened for. The calendar also opens it
      with the sacred-service type when such an event is edited; that dialog
      follows the minutes branch everywhere and skips the overlap gate. */
  datatype DialogType = PreachingDialog | CourseDialog | SacredDialog {
    function Kind(): ActivityKind {
      match this
      case PreachingDialog => Preaching
      case CourseDialog => BibleCourse
      case SacredDialog => SacredService
    }
  }

  datatype Mode = Create | Edit

  /** The text fields of the dialog, each the raw text of its input. */
  datatype Form = Form(startTime: string, endTime: string, minutes: string, title: string, personId: string)

  /** The stored record an edit starts from. */
  datatype InitialData = InitialData(
    id: Option<string>,
    startTime: Option<string>,
    endTime: Option<string>,
    minutes: Option<int>,
    title: Option<string>,
    personId: Option<string>)

  /** The first `n` characters, as `substring(0, n)`. */
  function Prefix(s: string, n: nat): (p: string)
    ensures |p| <= n && |p| <= |s| && p == s[..|p|]
    ensures |s| >= n ==> |p| == n
  {
    if |s| <= n then s else s[..n]
  }

  /** The fields when the dialog opens. An edit copies each field the stored
      record holds (times only for preaching, cut to `HH:MM`) and keeps what the
      form held before for the others; a new record starts from empty fields, with
      30 minutes proposed for a bible course. */
  function InitialForm(previous: Form, mode: Mode, kind: DialogType, initial: Option<InitialData>): (f: Form)
    ensures (mode.Create? || initial.None?) ==>
      f == Form("", "", if kind.CourseDialog? then "30" else "", "", "")
    ensures mode.Edit? && initial.Some? ==>
      && f.startTime == (if kind.PreachingDialog? && PresentText(initial.value.startTime) then Prefix(initial.value.startTime.value, 5) else previous.startTime)
      && f.endTime == (if kind.PreachingDialog? && PresentText(initial.value.endTime) then Prefix(initial.value.endTime.value, 5) else previous.endTime)
      && f.title == (if PresentText(initial.value.title) then initial.value.title.value else previous.title)
      && f.personId == (if PresentText(initial.value.personId) then initial.value.personId.value else previous.personId)
      && (initial.value.minutes.Some? && initial.value.minutes.value != 0 ==> ParseInt(f.minutes) == Num(initial.value.minutes.value))
      && (initial.value.minutes.None? || initial.value.minutes.value == 0 ==> f.minutes == previous.minutes)
  {
    if mode.Edit? && initial.Some? then
      var d := initial.value;
      var preaching := kind.PreachingDialog?;
      ParseIntOfIntText(d.minutes.GetOr(0));
      Form(
        if preaching && PresentText(d.startTime) then Prefix(d.startTime.value, 5) else previous.startTime,
        if preaching && PresentText(d.endTime) then Prefix(d.endTime.value, 5) else previous.endTime,
        if d.minutes.Some? && d.minutes.value != 0 then IntText(d.minutes.value) else previous.minutes,
        if PresentText(d.title) then d.title.value else previous.title,
        if PresentText(d.personId) then d.personId.value else previous.personId)
    else
      Form("", "", if kind.CourseDialog? then "30" else "", "", "")
  }

  // ------------------------------------------------------------ validation

  const DateRequired := "Fecha requerida"
  const TimesRequired := "Horas inicio y fin requeridas"
  const EndNotAfterStart := "La hora fin debe ser mayor que inicio"
  const MinutesRequired := "Minutos requeridos"
  const MinutesInvalid := "Minutos inválidos"

  /** `toM`: `h * 60 + (m || 0)` over the colon-separated fields of a time text;
      a non-numeric hour makes the whole value NaN. */
  function ClockMinutes(t: string): (r: JsNumber)
    ensures r.Num? <==> NumberOf(Split(t, ':')[0]).Num?
  {
    var parts := Split(t, ':');
    var h := NumberOf(parts[0]);
    var m := if |parts| > 1 then NumberOf(parts[1]).OrZero() else 0;
    if h.Num? then Num(h.value * 60 + m) else NaN
  }

  /** A time input's `HH:MM` reads as its minutes since midnight. */
  lemma ClockMinutesOfText(h: int, m: int)
    requires 0 <= h < 100 && 0 <= m < 100
    ensures ClockMinutes(HourMinuteText(h, m)) == Num(h * 60 + m)
  {
    HourMinuteFields(h, m);
    Pad2RoundTrip(h);
    Pad2RoundTrip(m);
  }

  /** The preaching range is rejected: both clock values are numbers and the end
      is not after the start (`NaN <= 0` is false, so a NaN difference passes). */
  predicate RangeNotPositive(f: Form) {
    var s := ClockMinutes(f.startTime);
    var e := ClockMinutes(f.endTime);
    s.Num? && e.Num? && e.value - s.value <= 0
  }

  /** `validate`: the first rule that fails, or nothing when the form may be saved. */
  function Validate(date: Option<Date>, kind: DialogType, f: Form): (error: Option<string>)
    ensures date.None? ==> error == Some(DateRequired)
    ensures error.None? <==>
      && date.Some?
      && (kind.PreachingDialog? ==> f.startTime != "" && f.endTime != "" && !RangeNotPositive(f))
      && (!kind.PreachingDialog? ==> f.minutes != "" && ParseInt(f.minutes).Num? && ParseInt(f.minutes).value > 0)
    ensures date.Some? && kind.PreachingDialog? && (f.startTime == "" || f.endTime == "") ==> error == Some(TimesRequired)
    ensures date.Some? && kind.PreachingDialog? && f.startTime != "" && f.endTime != "" && RangeNotPositive(f) ==> error == Some(EndNotAfterStart)
    ensures date.Some? && !kind.PreachingDialog? && f.minutes == "" ==> error == Some(MinutesRequired)
    ensures date.Some? && !kind.PreachingDialog? && f.minutes != "" && error.Some? ==> error == Some(MinutesInvalid)
  {
    if date.None? then Some(DateRequired)
    else if kind.PreachingDialog? then
      if f.startTime == "" || f.endTime == "" then Some(TimesRequired)
      else if RangeNotPositive(f) then Some(EndNotAfterStart)
      else None
    else
      if f.minutes == "" then Some(MinutesRequired)
      else
        var m := ParseInt(f.minutes);
        if !Truthy(m) || m.value <= 0 then Some(MinutesInvalid)
        else None
  }

  /** Two time inputs are accepted exactly when the end is later in the day. */
  lemma AcceptedRangeIsPositive(date: Date, sh: int, sm: int, eh: int, em: int, f: Form)
    requires 0 <= sh < 100 && 0 <= sm < 100 && 0 <= eh < 100 && 0 <= em < 100
    requires f.startTime == HourMinuteText(sh, sm) && f.endTime == HourMinuteText(eh, em)
    ensures Validate(Some(date), PreachingDialog, f).None? <==> sh * 60 + sm < eh * 60 + em
  {
    ClockMinutesOfText(sh, sm);
    ClockMinutesOfText(eh, em);
  }

  // ------------------------------------------------------------ payload

  /** The row `handleSave` writes. */
  datatype Payload = Payload(
    userId: string,
    activityDate: Option<Date>,
    kind: ActivityKind,
    startTime: Option<string>,
    endTime: Option<string>,
    minutes: Option<JsNumber>,
    title: Option<string>,
    personId: Option<string>)

  /** The payload: a preaching row carries the two times with seconds added and
      no minutes; a bible course or sacred service carries the parsed minutes and
      the person when one is chosen; the trimmed title is kept only when it is not
      blank. */
  function BuildPayload(userId: string, date: Option<Date>, kind: DialogType, f: Form): (p: Payload)
    ensures p.userId == userId && p.activityDate == date && p.kind == kind.Kind()
    ensures kind.PreachingDialog? ==>
      p.startTime == Some(f.startTime + ":00") && p.endTime == Some(f.endTime + ":00")
      && p.minutes.None? && p.personId.None?
    ensures !kind.PreachingDialog? ==>
      p.startTime.None? && p.endTime.None? && p.minutes == Some(ParseInt(f.minutes))
      && (p.personId.Some? <==> f.personId != "")
      && (p.personId.Some? ==> p.personId.value == f.personId)
    ensures p.title.Some? <==> !AllSpace(f.title)
    ensures p.title.Some? ==> p.title.value == Trim(f.title) && |p.title.value| > 0
  {
    TrimEmptyIff(f.title);
    var trimmed := Trim(f.title);
    var title := if trimmed != "" then Some(trimmed) else None;
    if kind.PreachingDialog? then
      Payload(userId, date, Preaching, Some(f.startTime + ":00"), Some(f.endTime + ":00"), None, title, None)
    else
      Payload(userId, date, kind.Kind(), None, None, Some(ParseInt(f.minutes)),
              title, if f.personId != "" then Some(f.personId) else None)
  }

  /** A saved time reopens as the text that was typed: the stored `HH:MM:00` cut
      back to five characters. */
  lemma SavedTimeReopens(userId: string, date: Option<Date>, f: Form, previous: Form, id: Option<string>, h: int, m: int)
    requires 0 <= h < 100 && 0 <= m < 100 && f.startTime == HourMinuteText(h, m)
    ensures var p := BuildPayload(userId, date, PreachingDialog, f);
            InitialForm(previous, Edit, PreachingDialog,
                        Some(InitialData(id, p.startTime, p.endTime, None, p.title, p.personId))).startTime
            == f.startTime
  {
    var stored := f.startTime + ":00";
    assert stored[..5] == f.startTime;
  }

  /** Accepted bible-course or sacred-service minutes reach the payload as a
      positive number. */
  lemma AcceptedCourseMinutesArePositive(userId: string, date: Option<Date>, kind: DialogType, f: Form)
    requires !kind.PreachingDialog? && Validate(date, kind, f).None?
    ensures var p := BuildPayload(userId, date, kind, f);
            p.minutes.Some? && p.minutes.value.Num? && p.minutes.value.value > 0
  {
  }

  // ------------------------------------------------------------ save

  const SessionExpired := "Sesión expirada"
  const RangeOverlaps := "El rango se solapa con otro registro de predicación"

  /** The instant `new Date(y, m, d, h, min)` the overlap gate builds from a time text. */
  function RangeEnd(date: Date, t: string): (r: Instant)
    ensures r.At? <==> NumberOf(Split(t, ':')[0]).Num? && FieldOrNaN(Split(t, ':'), 1).Num?
  {
    var parts := Split(t, ':');
    MakeInstant(date, NumberOf(parts[0]), FieldOrNaN(parts, 1))
  }

  /** A time input `HH:MM` builds the instant `h` hours and `m` minutes into the
      dialog's day. */
  lemma RangeEndOfText(date: Date, h: int, m: int)
    requires 0 <= h < 100 && 0 <= m < 100
    ensures RangeEnd(date, HourMinuteText(h, m)) == At(DayNumber(date) * MinutesPerDay + h * 60 + m)
  {
    HourMinuteFields(h, m);
    Pad2RoundTrip(h);
    Pad2RoundTrip(m);
  }

  /** What a save leaves behind: an error shown in the dialog, a row inserted, a
      row updated, or a dialog closed without any write (an edit with no id). */
  datatype SaveOutcome =
    | Rejected(message: string)
    | Inserted(payload: Payload)
    | Updated(id: string, payload: Payload)
    | ClosedWithoutWrite

  /** The overlap gate: a preaching save whose range the calendar's predicate
      reports as overlapping. */
  predicate OverlapBlocks(date: Option<Date>, kind: DialogType, f: Form, editId: Option<string>,
                          overlap: Option<(Instant, Instant, Option<string>) -> bool>)
  {
    && kind.PreachingDialog? && date.Some? && f.startTime != "" && f.endTime != ""
    && overlap.Some?
    && overlap.value(RangeEnd(date.value, f.startTime), RangeEnd(date.value, f.endTime), editId)
  }

  /** `handleSave`. The session, the overlap predicate and the database's reply
      (an error message or nothing) are parameters. */
  function HandleSave(mode: Mode, date: Option<Date>, kind: DialogType, f: Form, editId: Option<string>,
                      session: Option<string>,
                      overlap: Option<(Instant, Instant, Option<string>) -> bool>,
                      dbError: Option<string>): (out: SaveOutcome)
    ensures Validate(date, kind, f).Some? ==> out == Rejected(Validate(date, kind, f).value)
    ensures Validate(date, kind, f).None? && session.None? ==> out == Rejected(SessionExpired)
    ensures Validate(date, kind, f).None? && session.Some? && OverlapBlocks(date, kind, f, editId, overlap) ==>
      out == Rejected(RangeOverlaps)
    ensures out.Inserted? || out.Updated? ==>
      && Validate(date, kind, f).None? && session.Some? && dbError.None?
      && !OverlapBlocks(date, kind, f, editId, overlap)
    ensures out.Inserted? <==> mode.Create? && Validate(date, kind, f).None? && session.Some?
                               && !OverlapBlocks(date, kind, f, editId, overlap) && dbError.None?
    ensures out.Inserted? ==> out.payload == BuildPayload(session.value, date, kind, f)
    ensures out.Updated? ==>
      mode.Edit? && editId == Some(out.id) && out.id != "" && out.payload == BuildPayload(session.value, date, kind, f)
    ensures out.ClosedWithoutWrite? ==> mode.Edit? && !PresentText(editId)
    ensures out.ClosedWithoutWrite? <==>
      (Validate(date, kind, f).None? && session.Some? && !OverlapBlocks(date, kind, f, editId, overlap)
       && mode.Edit? && !PresentText(editId))
    // Every gate passed and a write is attempted: the store's error is shown,
    // or an edit updates the record it was opened on.
    ensures Validate(date, kind, f).None? && session.Some? && !OverlapBlocks(date, kind, f, editId, overlap)
            && (mode.Create? || PresentText(editId)) && dbError.Some? ==>
      out == Rejected(dbError.value)
    ensures Validate(date, kind, f).None? && session.Some? && !OverlapBlocks(date, kind, f, editId, overlap)
            && mode.Edit? && PresentText(editId) && dbError.None? ==>
      out == Updated(editId.value, BuildPayload(session.value, date, kind, f))
  {
    var error := Validate(date, kind, f);
    if error.Some? then Rejected(error.value)
    else if session.None? then Rejected(SessionExpired)
    else
      var payload := BuildPayload(session.value, date, kind, f);
      if OverlapBlocks(date, kind, f, editId, overlap) then Rejected(RangeOverlaps)
      else if mode.Create? then
        if dbError.Some? then Rejected(dbError.value) else Inserted(payload)
      else if PresentText(editId) then
        if dbError.Some? then Rejected(dbError.value) else Updated(editId.value, payload)
      else ClosedWithoutWrite
  }

  /** Only the preaching dialog consults the overlap predicate: a bible-course or
      sacred-service save ends the same whatever the predicate answers. */
  lemma MinutesDialogsIgnoreOverlap(mode: Mode, date: Option<Date>, kind: DialogType, f: Form,
                                    editId: Option<string>, session: Option<string>,
                                    overlap: Option<(Instant, Instant, Option<string>) -> bool>,
                                    dbError: Option<string>)
    requires !kind.PreachingDialog?
    ensures HandleSave(mode, date, kind, f, editId, session, overlap, dbError)
            == HandleSave(mode, date, kind, f, editId, session, None, dbError)
  {
  }

  /** An accepted preaching range of two time inputs starts before it ends, on
      the dialog's day. */
  lemma SavedRangeIsOrdered(mode: Mode, date: Date, f: Form, editId: Option<string>, session: Option<string>,
                            overlap: Option<(Instant, Instant, Option<string>) -> bool>, dbError: Option<string>,
                            sh: int, sm: int, eh: int, em: int)
    requires 0 <= sh < 100 && 0 <= sm < 100 && 0 <= eh < 100 && 0 <= em < 100
    requires f.startTime == HourMinuteText(sh, sm) && f.endTime == HourMinuteText(eh, em)
    requires HandleSave(mode, Some(date), PreachingDialog, f, editId, session, overlap, dbError).Inserted?
    ensures Earlier(RangeEnd(date, f.startTime), RangeEnd(date, f.endTime))
  {
    AcceptedRangeIsPositive(date, sh, sm, eh, em, f);
    HourMinuteFields(sh, sm);
    HourMinuteFields(eh, em);
    Pad2RoundTrip(sh);
    Pad2RoundTrip(sm);
    Pad2RoundTrip(eh);
    Pad2RoundTrip(em);
  }
}

=== FILE: calendar_view.dfy ===
/** The calendar screen: the Monday-based week start, the six-week month grid,
    the mapping of activity rows to timed calendar events, the month-lock check,
    the overlap test used before saving a preaching range, the person ids already
    booked on a day, and the month metrics shown above the calendar. */
module CalendarView {

  import opened Types
  import opened JsText
  import opened CivilDate
  import opened Entries
  import Reports
  import ReportsPage

  // ------------------------------------------------------------ weeks and grid

  /** `startOfWeekManual`: the Monday of the week holding day `n` — the day
      itself on a Monday, six days back on a Sunday. */
  function StartOfWeek(n: int): (r: int)
    ensures Weekday(r) == 1
    ensures n - 6 <= r <= n
    ensures n - r == (Weekday(n) + 6) % 7
  {
    var jsDay := Weekday(n);
    var diff := if jsDay == 0 then -6 else 1 - jsDay;
    assert Weekday(n + diff) == 1 by {
      assert (n + 4) % 7 == jsDay;
      assert n + 4 == 7 * ((n + 4) / 7) + jsDay;
      assert n + diff + 4 == 7 * ((n + 4) / 7) + jsDay + diff;
      if jsDay == 0 {
        assert n + diff + 4 == 7 * ((n + 4) / 7 - 1) + 1;
      } else {
        assert n + diff + 4 == 7 * ((n + 4) / 7) + 1;
      }
    }
    n + diff
  }

  const GridDays := 42
  const WeekLength := 7

  /** The day of row `w`, column `c` of a grid starting on `start`. */
  predicate IsGrid(weeks: seq<seq<int>>, start: int) {
    && |weeks| == GridDays / WeekLength
    && (forall w :: 0 <= w < |weeks| ==> |weeks[w]| == WeekLength)
    && (forall w, c :: 0 <= w < |weeks| && 0 <= c < |weeks[w]| ==> weeks[w][c] == start + WeekLength * w + c)
  }

  /** The month grid of `CustomMonthGrid`: 42 consecutive day numbers from the
      Monday on or before the first of the month, cut into six weeks. */
  method MonthGrid(year: int, month: Month0) returns (weeks: seq<seq<int>>)
    ensures IsGrid(weeks, StartOfWeek(DayNumber(Date(year, month, 1))))
    ensures Weekday(weeks[0][0]) == 1
    ensures DayNumber(Date(year, month, 1)) in weeks[0]
  {
    var gridStart := StartOfWeek(DayNumber(Date(year, month, 1)));
    var days: seq<int> := [];
    var i := 0;
    while i < GridDays
      invariant 0 <= i <= GridDays
      invariant |days| == i
      invariant forall k :: 0 <= k < i ==> days[k] == gridStart + k
    {
      days := days + [gridStart + i];
      i := i + 1;
    }
    weeks := [];
    var j := 0;
    while j < GridDays
      invariant 0 <= j <= GridDays && j % WeekLength == 0
      invariant |weeks| == j / WeekLength
      invariant forall w :: 0 <= w < |weeks| ==> |weeks[w]| == WeekLength
      invariant forall w, c :: 0 <= w < |weeks| && 0 <= c < |weeks[w]| ==> weeks[w][c] == gridStart + WeekLength * w + c
    {
      weeks := weeks + [days[j..j + WeekLength]];
      j := j + WeekLength;
    }
    var first := DayNumber(Date(year, month, 1));
    assert weeks[0][first - gridStart] == first;
  }

  /** Every day of the month has a cell: a month of at most 31 days starting in
      the first week never runs past the sixth. */
  lemma MonthFitsGrid(weeks: seq<seq<int>>, year: int, month: Month0, day: int)
    requires IsGrid(weeks, StartOfWeek(DayNumber(Date(year, month, 1))))
    requires 1 <= day <= DaysInMonth(year, month)
    ensures exists w, c :: 0 <= w < |weeks| && 0 <= c < |weeks[w]| && weeks[w][c] == DayNumber(Date(year, month, day))
  {
    var first := Date(year, month, 1);
    var start := StartOfWeek(DayNumber(first));
    DayNumberShift(first, day - 1);
    assert DayNumber(Date(year, month, day)) == DayNumber(first) + day - 1;
    var offset := DayNumber(Date(year, month, day)) - start;
    assert 0 <= offset < GridDays;
    var w := offset / WeekLength;
    var c := offset % WeekLength;
    assert offset == WeekLength * w + c && 0 <= w < 6 && 0 <= c < 7;
    assert weeks[w][c] == start + WeekLength * w + c;
  }

  // ------------------------------------------------------------ rows to events

  /** The hour and minute fields `parseTime` reads, each `Number(...)` of its text. */
  datatype TimeFields = TimeFields(h: JsNumber, m: JsNumber)

  /** `parseTime`: nothing for a missing or empty text; otherwise the first two
      colon-separated fields, the minute field defaulting to "0". */
  function ParseTime(t: Option<string>): (r: Option<TimeFields>)
    ensures r.None? <==> !PresentText(t)
    ensures r.Some? ==> r.value.h == NumberOf(Split(t.value, ':')[0])
    ensures r.Some? && |Split(t.value, ':')| == 1 ==> r.value.m == Num(0)
    ensures r.Some? && |Split(t.value, ':')| > 1 ==> r.value.m == NumberOf(Split(t.value, ':')[1])
  {
    if !PresentText(t) then None
    else
      var parts := Split(t.value, ':');
      var mm := if |parts| > 1 then parts[1] else "0";
      Some(TimeFields(NumberOf(parts[0]), NumberOf(mm)))
  }

  /** A stored `HH:MM:SS` time reads back as its hour and minute. */
  lemma ParseTimeOfClockText(h: int, m: int)
    requires 0 <= h < 100 && 0 <= m < 100
    ensures ParseTime(Some(ClockText(h, m))) == Some(TimeFields(Num(h), Num(m)))
  {
    ClockTextFields(h, m);
    Pad2RoundTrip(h);
    Pad2RoundTrip(m);
  }

  /** A calendar event built from an activity row. */
  datatype EntryEvent = EntryEvent(
    id: string,
    start: Instant,
    end: Instant,
    allDay: bool,
    minutes: int,
    kind: ActivityKind,
    personId: Option<string>,
    hideTime: bool)

  /** A preaching or sacred-service row with both a start and an end time. */
  predicate IsTimedRow(row: ActivityEntry) {
    (row.kind == Preaching || row.kind == SacredService)
    && ParseTime(row.startTime).Some? && ParseTime(row.endTime).Some?
  }

  /** The row-to-event mapping of `fetchEntries`. A bible course is a one-minute
      event at noon; a preaching or sacred-service row with both times runs from
      start to end, pushed to one minute when the end is not after the start; any
      other row is shown all day, 00:00 to 23:59. */
  function ToEvent(row: ActivityEntry): (e: EntryEvent)
    ensures e.id == row.id && e.kind == row.kind && e.personId == row.personId
    ensures e.minutes == row.minutes.GetOr(0)
    ensures e.start.At? && e.end.At? ==> Earlier(e.start, e.end)
    ensures e.allDay ==> e.start.At? && e.end.At? && e.end.minute - e.start.minute == 23 * 60 + 59
    ensures row.kind == BibleCourse ==> e.hideTime && e.start.At? && e.end.At? && e.end.minute - e.start.minute == 1
    ensures e.start.At? ==> e.start.minute / MinutesPerDay == DayNumber(row.date) || !ClockWithinDay(ParseTime(row.startTime))
    // A bible course: noon of its date, then one minute.
    ensures row.kind == BibleCourse ==>
      && e.start == MakeInstant(row.date, Num(12), Num(0))
      && e.end == AddMinutes(e.start, 1) && !e.allDay
    // A timed row: its parsed range, the end pushed to start + 1 minute when
    // it is not after the start.
    ensures IsTimedRow(row) ==>
      var s := MakeInstant(row.date, ParseTime(row.startTime).value.h, ParseTime(row.startTime).value.m);
      var t := MakeInstant(row.date, ParseTime(row.endTime).value.h, ParseTime(row.endTime).value.m);
      && e.start == s && !e.allDay && !e.hideTime
      && (Earlier(s, t) ==> e.end == t)
      && (s.At? && t.At? && !Earlier(s, t) ==> e.end == AddMinutes(s, 1))
      && (!s.At? || !t.At? ==> e.end == t)
    // Anything else: the whole day, 00:00 to 23:59.
    ensures row.kind != BibleCourse && !IsTimedRow(row) ==>
      && e.allDay && !e.hideTime
      && e.start == At(DayNumber(row.date) * MinutesPerDay)
      && e.end == At(DayNumber(row.date) * MinutesPerDay + 23 * 60 + 59)
    ensures e.allDay <==> row.kind != BibleCourse && !IsTimedRow(row)
  {
    var st := ParseTime(row.startTime);
    var et := ParseTime(row.endTime);
    var noZero := JsText.Num(0);
    if row.kind == BibleCourse then
      var start := MakeInstant(row.date, Num(12), noZero);
      EntryEvent(row.id, start, AddMinutes(start, 1), false, row.minutes.GetOr(0), row.kind, row.personId, true)
    else if (row.kind == Preaching || row.kind == SacredService) && st.Some? && et.Some? then
      var start := MakeInstant(row.date, st.value.h, st.value.m);
      var end0 := MakeInstant(row.date, et.value.h, et.value.m);
      var end := if start.At? && end0.At? && end0.minute <= start.minute then AddMinutes(start, 1) else end0;
      EntryEvent(row.id, start, end, false, row.minutes.GetOr(0), row.kind, row.personId, false)
    else
      var start := MakeInstant(row.date, noZero, noZero);
      EntryEvent(row.id, start, MakeInstant(row.date, Num(23), Num(59)), true, row.minutes.GetOr(0), row.kind, row.personId, false)
  }

  /** Hour and minute that stay inside one day. */
  predicate ClockWithinDay(t: Option<TimeFields>) {
    t.Some? && t.value.h.Num? && t.value.m.Num? && 0 <= t.value.h.value < 24 && 0 <= t.value.m.value < 60
  }

  /** When both times parse to numbers every mapped event has a real duration. */
  lemma TimedEventsAreValid(row: ActivityEntry)
    requires ParseTime(row.startTime).Some? && ParseTime(row.endTime).Some?
    requires ParseTime(row.startTime).value.h.Num? && ParseTime(row.startTime).value.m.Num?
    requires ParseTime(row.endTime).value.h.Num? && ParseTime(row.endTime).value.m.Num?
    ensures ToEvent(row).start.At? && ToEvent(row).end.At?
    ensures Earlier(ToEvent(row).start, ToEvent(row).end)
  {
  }

  // ------------------------------------------------------------ locks

  /** The month indexes the calendar loads for the viewed year, as written:
      `reports.map((r) => r.month_index)`, every report whether locked or not. */
  function LoadedMonthIndexes(reports: seq<Reports.Report>): (r: seq<int>)
    ensures |r| == |reports|
    ensures forall i :: 0 <= i < |r| ==> r[i] == reports[i].monthIndex
  {
    seq(|reports|, i requires 0 <= i < |reports| => reports[i].monthIndex)
  }

  /** The month indexes of the reports that are locked. */
  function LockedMonthIndexes(reports: seq<Reports.Report>): (r: seq<int>)
    ensures forall k :: k in r <==> exists i :: 0 <= i < |reports| && reports[i].locked && reports[i].monthIndex == k
  {
    if |reports| == 0 then []
    else
      var init := reports[..|reports| - 1];
      var last := reports[|reports| - 1];
      var r := LockedMonthIndexes(init) + (if last.locked then [last.monthIndex] else []);
      assert forall i :: 0 <= i < |init| ==> init[i] == reports[i];
      r
  }

  /** `isDateLocked` as written: the date's month index within its own
      theocratic year, looked up in the indexes loaded for the year of the viewed
      date. */
  function IsDateLockedAsWritten(date: Option<Date>, lockedMonthIndexes: seq<int>): (locked: bool)
    ensures date.None? ==> !locked
    ensures date.Some? && date.value.day >= 1 ==>
      (locked <==> exists i :: i in lockedMonthIndexes
                              && Reports.InPeriod(date.value, Reports.MonthRange(Reports.TheocraticYearBase(date.value), i)))
  {
    if date.None? then false
    else
      var d := date.value;
      var baseYear := Reports.TheocraticYearBase(d);
      var k := Reports.MonthIndexFromDate(baseYear, d);
      var locked := k in lockedMonthIndexes;
      assert d.day >= 1 ==> (locked <==> exists i :: i in lockedMonthIndexes
                                                    && Reports.InPeriod(d, Reports.MonthRange(baseYear, i))) by {
        if d.day >= 1 {
          forall i | i in lockedMonthIndexes
            ensures Reports.InPeriod(d, Reports.MonthRange(baseYear, i)) <==> k == i
          {
            Reports.InMonthRangeIff(baseYear, i, d);
          }
        }
      }
      locked
  }

  /** A grid that shows August 2025 (whose indexes come from the 2024 theocratic
      year) also shows September 1, 2025; with September 2024 locked, that day
      reads as locked although no report of the 2025 year exists. */
  lemma AdjacentYearDayReadsLocked()
    ensures Reports.TheocraticYearBase(Date(2025, 7, 15)) == 2024
    ensures Reports.TheocraticYearBase(Date(2025, 8, 1)) == 2025
    ensures var gridStart := StartOfWeek(DayNumber(Date(2025, 7, 1)));
            gridStart <= DayNumber(Date(2025, 8, 1)) < gridStart + GridDays
    ensures IsDateLockedAsWritten(Some(Date(2025, 8, 1)), [0])
    ensures !IsDateLocked(Some(Date(2025, 8, 1)), 2024, [0])
  {
    assert DayNumber(Date(2025, 7, 1)) == 20301;
    assert DayNumber(Date(2025, 8, 1)) == 20332;
  }

  /** A September 2024 report that has been unlocked still makes September 10,
      2024 read as locked, because every report's index is loaded. */
  lemma UnlockedMonthReadsLocked(rep: Reports.Report)
    requires rep.monthIndex == 0 && !rep.locked
    ensures IsDateLockedAsWritten(Some(Date(2024, 8, 10)), LoadedMonthIndexes([rep]))
    ensures !IsDateLocked(Some(Date(2024, 8, 10)), 2024, LockedMonthIndexes([rep]))
  {
    assert LoadedMonthIndexes([rep])[0] == 0;
  }

  /** The lock check with the year its indexes belong to: a date is locked
      exactly when one of the listed months of that theocratic year holds it. */
  function IsDateLocked(date: Option<Date>, lockedYear: int, lockedMonthIndexes: seq<int>): (locked: bool)
    ensures date.None? ==> !locked
    ensures date.Some? && date.value.day >= 1 ==>
      (locked <==> exists i :: i in lockedMonthIndexes && 0 <= i < Reports.MonthsPerYear
                              && Reports.InPeriod(date.value, Reports.MonthRange(lockedYear, i)))
  {
    if date.None? then false
    else
      var d := date.value;
      var k := Reports.MonthIndexFromDate(lockedYear, d);
      var locked := Reports.TheocraticYearBase(d) == lockedYear && k in lockedMonthIndexes;
      assert d.day >= 1 ==> (locked <==> exists i :: i in lockedMonthIndexes && 0 <= i < Reports.MonthsPerYear
                                                    && Reports.InPeriod(d, Reports.MonthRange(lockedYear, i))) by {
        if d.day >= 1 {
          forall i | i in lockedMonthIndexes
            ensures Reports.InPeriod(d, Reports.MonthRange(lockedYear, i)) <==> k == i
          {
            Reports.InMonthRangeIff(lockedYear, i, d);
          }
          if locked {
            assert k in lockedMonthIndexes && 0 <= k < Reports.MonthsPerYear;
          }
        }
      }
      locked
  }

  /** For a date of the viewed year and a ledger whose reports are all locked,
      both checks agree; the written one errs only on days of a neighbouring year
      or months whose report was unlocked. */
  lemma LockChecksAgreeWithinYear(d: Date, lockedYear: int, reports: seq<Reports.Report>)
    requires Reports.TheocraticYearBase(d) == lockedYear
    requires forall i :: 0 <= i < |reports| ==> reports[i].locked
    ensures IsDateLockedAsWritten(Some(d), LoadedMonthIndexes(reports))
         == IsDateLocked(Some(d), lockedYear, LockedMonthIndexes(reports))
  {
    var k := Reports.MonthIndexFromDate(lockedYear, d);
    var loaded := LoadedMonthIndexes(reports);
    if k in loaded {
      var j :| 0 <= j < |loaded| && loaded[j] == k;
      assert reports[j].locked && reports[j].monthIndex == k;
    }
  }

  /** Unlocking the last report of a chained ledger opens its month in the
      calendar, and only that month. */
  lemma UnlockOpensMonth(reports: seq<Reports.Report>, recalcFrom: Option<int>, lockedYear: int, d: Date)
    requires ReportsPage.DistinctIds(reports) && Reports.ChainedLedger(reports) && |reports| > 0
    requires reports[|reports| - 1].locked
    requires d.day >= 1
    ensures var last := reports[|reports| - 1];
      var s := ReportsPage.HandleUnlock(reports, recalcFrom, Ok(last.(locked := false)));
      IsDateLocked(Some(d), lockedYear, LockedMonthIndexes(s.reports))
      <==> IsDateLocked(Some(d), lockedYear, LockedMonthIndexes(reports))
           && !Reports.InPeriod(d, Reports.MonthRange(lockedYear, last.monthIndex))
  {
    var n := |reports|;
    var last := reports[n - 1];
    ReportsPage.UnlockTouchesOnlyLast(reports, recalcFrom);
    var s := ReportsPage.HandleUnlock(reports, recalcFrom, Ok(last.(locked := false)));
    var k := Reports.MonthIndexFromDate(lockedYear, d);
    Reports.InMonthRangeIff(lockedYear, last.monthIndex, d);
    assert forall i :: 0 <= i < n - 1 ==> s.reports[i] == reports[i];
    assert s.reports[n - 1] == last.(locked := false);
    assert last.monthIndex == n - 1;
    if k in LockedMonthIndexes(s.reports) {
      var j :| 0 <= j < |s.reports| && s.reports[j].locked && s.reports[j].monthIndex == k;
      assert j < n - 1 && reports[j].monthIndex == j;
    }
    if k in LockedMonthIndexes(reports) && k != n - 1 {
      var j :| 0 <= j < n && reports[j].locked && reports[j].monthIndex == k;
      assert reports[j].monthIndex == j && j < n - 1 && s.reports[j] == reports[j];
    }
  }

  // ------------------------------------------------------------ day bookings and overlap

  /** A bible course event naming a person, on the same day as the dialog's date,
      other than the event being edited. */
  predicate IsOtherCourseOnDay(e: EntryEvent, day: Instant, editId: Option<string>) {
    && e.kind == BibleCourse
    && PresentText(e.personId)
    && SameDay(e.start, day)
    && (editId.None? || editId.value != e.id)
  }

  /** `getExistingCoursePersonIdsForDay`: the person ids of the other bible
      courses on the dialog's day, in event order; none without a dialog date. */
  function ExistingCoursePersonIds(events: seq<EntryEvent>, modalDate: Option<Instant>, editId: Option<string>): (ids: seq<string>)
    ensures modalDate.None? ==> ids == []
    ensures modalDate.Some? ==> forall p :: p in ids <==>
      exists e :: e in events && IsOtherCourseOnDay(e, modalDate.value, editId) && e.personId.value == p
  {
    if modalDate.None? || |events| == 0 then []
    else
      var init := ExistingCoursePersonIds(events[..|events| - 1], modalDate, editId);
      var e := events[|events| - 1];
      assert events == events[..|events| - 1] + [e];
      if IsOtherCourseOnDay(e, modalDate.value, editId) then init + [e.personId.value] else init
  }

  /** The event being edited never contributes its own person. */
  lemma EditedEventExcluded(events: seq<EntryEvent>, modalDate: Instant, editId: string, p: string)
    requires forall e :: e in events && e.personId == Some(p) ==> e.id == editId
    ensures p !in ExistingCoursePersonIds(events, Some(modalDate), Some(editId))
  {
  }

  /** `validateOverlap`: some timed preaching or sacred-service event, other than
      the one being edited (an empty id skips nothing), intersects `[start, end)`. */
  function ValidateOverlap(events: seq<EntryEvent>, start: Instant, end: Instant, id: Option<string>): (overlaps: bool)
    ensures overlaps <==> exists e :: e in events && Competes(e, id) && Earlier(start, e.end) && Earlier(e.start, end)
  {
    if |events| == 0 then false
    else
      var e := events[|events| - 1];
      assert events == events[..|events| - 1] + [e];
      ValidateOverlap(events[..|events| - 1], start, end, id)
      || (Competes(e, id) && Earlier(start, e.end) && Earlier(e.start, end))
  }

  /** An event a new preaching range must not overlap. */
  predicate Competes(e: EntryEvent, id: Option<string>) {
    (e.kind == Preaching || e.kind == SacredService) && !e.allDay && !(PresentText(id) && e.id == id.value)
  }

  /** Touching ranges do not overlap: a range that ends where another starts
      passes the check. */
  lemma AdjacentRangesDoNotOverlap(e: EntryEvent, start: Instant)
    requires e.start.At? && start.At? && start.minute < e.start.minute
    ensures !ValidateOverlap([e], start, e.start, None)
  {
  }

  // ------------------------------------------------------------ metrics

  datatype MonthMetrics = MonthMetrics(preachingMinutes: int, distinctPersons: int)

  /** Preaching minutes of the events that start in the viewed month. */
  function PreachingMinutesIn(events: seq<EntryEvent>, year: int, month: int): int {
    if |events| == 0 then 0
    else
      var e := events[|events| - 1];
      PreachingMinutesIn(events[..|events| - 1], year, month)
      + (if e.kind == Preaching && InMonth(e.start, year, month) then e.minutes else 0)
  }

  /** The persons of the bible courses that start in the viewed month. */
  function PersonsIn(events: seq<EntryEvent>, year: int, month: int): set<string> {
    set e | e in events && e.kind == BibleCourse && InMonth(e.start, year, month) && PresentText(e.personId)
          :: e.personId.value
  }

  /** One more event adds at most its own person. */
  lemma PersonsInSnoc(events: seq<EntryEvent>, e: EntryEvent, year: int, month: int)
    ensures PersonsIn(events + [e], year, month)
         == PersonsIn(events, year, month)
            + (if e.kind == BibleCourse && InMonth(e.start, year, month) && PresentText(e.personId)
               then {e.personId.value} else {})
  {
    var s := events + [e];
    assert forall x :: x in s <==> x in events || x == e;
  }

  /** `metrics`: one pass over the events of the viewed month. */
  method Metrics(events: seq<EntryEvent>, viewYear: int, viewMonth: Month0) returns (m: MonthMetrics)
    ensures m.preachingMinutes == PreachingMinutesIn(events, viewYear, viewMonth)
    ensures m.distinctPersons == |PersonsIn(events, viewYear, viewMonth)|
  {
    var total := 0;
    var persons: set<string> := {};
    var k := 0;
    while k < |events|
      invariant 0 <= k <= |events|
      invariant total == PreachingMinutesIn(events[..k], viewYear, viewMonth)
      invariant persons == PersonsIn(events[..k], viewYear, viewMonth)
    {
      var e := events[k];
      assert events[..k + 1] == events[..k] + [e];
      if e.kind == Preaching && InMonth(e.start, viewYear, viewMonth) {
        total := total + e.minutes;
      }
      if e.kind == BibleCourse && InMonth(e.start, viewYear, viewMonth) && PresentText(e.personId) {
        persons := persons + {e.personId.value};
      }
      PersonsInSnoc(events[..k], e, viewYear, viewMonth);
      k := k + 1;
    }
    assert events[..k] == events;
    m := MonthMetrics(total, |persons|);
  }
}

=== FILE: civil_date.dfy ===
/** Local calendar dates and instants as the application reads them from the
    JavaScript `Date` object: `getFullYear()`, `getMonth()` (0 = January) and
    `getDate()`, the month-overflow normalisation of `new Date(y, m, d)`, and the
    day-of-week `getDay()` (0 = Sunday). Time zones and daylight saving are not
    modelled: every date is a plain proleptic Gregorian calendar date. */
module CivilDate {

  import opened JsText

  /** `getMonth()`: 0 = January … 11 = December. */
  type Month0 = m: int | 0 <= m < 12

  datatype Date = Date(year: int, month: Month0, day: int)

  const MinutesPerDay := 1440

  predicate IsLeapYear(y: int) {
    y % 4 == 0 && (y % 100 != 0 || y % 400 == 0)
  }

  function DaysInMonth(y: int, m: Month0): int {
    if m == 1 then (if IsLeapYear(y) then 29 else 28)
    else if m == 3 || m == 5 || m == 8 || m == 10 then 30
    else 31
  }

  /** The dates a `Date` object can report. */
  predicate Valid(d: Date) {
    1 <= d.day <= DaysInMonth(d.year, d.month)
  }

  /** Strict chronological order of calendar dates (the order of `YYYY-MM-DD` texts). */
  predicate Before(a: Date, b: Date) {
    || a.year < b.year
    || (a.year == b.year && a.month < b.month)
    || (a.year == b.year && a.month == b.month && a.day < b.day)
  }

  predicate NotAfter(a: Date, b: Date) {
    a == b || Before(a, b)
  }

  /** Months counted from year 0: the position of a date's month on a single
      month line. */
  function MonthOrdinal(d: Date): int {
    d.year * 12 + d.month
  }

  /** `new Date(y, m, 1)`: a month outside 0..11 carries into the year. */
  function FirstOfMonth(y: int, m: int): (d: Date)
    ensures d.day == 1
    ensures MonthOrdinal(d) == y * 12 + m
  {
    Date(y + m / 12, m % 12, 1)
  }

  /** Dates on the same month line compare by month first. */
  lemma OrdinalOrder(a: Date, b: Date)
    ensures MonthOrdinal(a) < MonthOrdinal(b) ==> Before(a, b)
    ensures Before(a, b) ==> MonthOrdinal(a) <= MonthOrdinal(b)
  {
  }

  // ------------------------------------------------------------ day numbers

  /** The number of days from 1970-01-01 to the date (negative before it), by
      the usual era/year-of-era decomposition of the Gregorian calendar with
      years starting in March. A day outside the month counts on, as in
      `new Date(y, m, d)`. */
  function DayNumber(d: Date): int {
    var y := if d.month <= 1 then d.year - 1 else d.year;
    var era := y / 400;
    var yoe := y - era * 400;
    var mp := (d.month + 10) % 12;
    var doy := (153 * mp + 2) / 5 + d.day - 1;
    var doe := yoe * 365 + yoe / 4 - yoe / 100 + doy;
    era * 146097 + doe - 719468
  }

  /** Moving the day-of-month moves the day number by the same amount. */
  lemma DayNumberShift(d: Date, k: int)
    ensures DayNumber(d.(day := d.day + k)) == DayNumber(d) + k
  {
  }

  /** `getDay()` of the date with this day number: 0 = Sunday … 6 = Saturday
      (1970-01-01 was a Thursday). */
  function Weekday(n: int): (w: int)
    ensures 0 <= w < 7
  {
    (n + 4) % 7
  }

  /** The calendar date of a day number, by the same 400-year era decomposition
      that `DayNumber` counts with (Hinnant's `civil_from_days`). */
  function CivilOfDay(n: int): Date {
    var z := n + 719468;
    var era := z / 146097;
    var doe := z - era * 146097;
    var yoe := (doe - doe / 1460 + doe / 36524 - doe / 146096) / 365;
    var doy := doe - (365 * yoe + yoe / 4 - yoe / 100);
    var mp := (5 * doy + 2) / 153;
    var day := doy - (153 * mp + 2) / 5 + 1;
    var month := (mp + 2) % 12;
    var year := yoe + era * 400 + (if month <= 1 then 1 else 0);
    Date(year, month, day)
  }

  // ------------------------------------------------------------ instants

  /** A `Date` object: a local time in minutes since 1970-01-01 00:00, or the
      Invalid Date that a NaN field produces. Seconds and milliseconds are not
      used by the application. */
  datatype Instant = At(minute: int) | InvalidTime

  /** `new Date(y, m, d, h, min)` with the calendar date already given and the
      hour and minute fields as numbers: a NaN field gives an Invalid Date, any
      other value counts on from midnight. */
  function MakeInstant(d: Date, h: JsNumber, min: JsNumber): (t: Instant)
    ensures t.At? <==> h.Num? && min.Num?
    ensures t.At? ==> t.minute - DayNumber(d) * MinutesPerDay == h.value * 60 + min.value
  {
    if h.Num? && min.Num? then At(DayNumber(d) * MinutesPerDay + h.value * 60 + min.value)
    else InvalidTime
  }

  /** `a < b` on two `Date` objects: false whenever one of them is invalid. */
  predicate Earlier(a: Instant, b: Instant) {
    a.At? && b.At? && a.minute < b.minute
  }

  /** `new Date(t.getTime() + k * 60 * 1000)`. */
  function AddMinutes(t: Instant, k: int): (r: Instant)
    ensures r.At? <==> t.At?
    ensures r.At? ==> r.minute - t.minute == k
  {
    if t.At? then At(t.minute + k) else InvalidTime
  }

  /** The day number of a valid instant. */
  function DayOf(t: Instant): int
    requires t.At?
  {
    t.minute / MinutesPerDay
  }

  /** `a.toDateString() === b.toDateString()`: the same local day, or both
      "Invalid Date". */
  predicate SameDay(a: Instant, b: Instant) {
    (a.InvalidTime? && b.InvalidTime?) || (a.At? && b.At? && DayOf(a) == DayOf(b))
  }

  /** `t.getFullYear() === year && t.getMonth() === month`; never true of an
      Invalid Date, whose getters return NaN. */
  predicate InMonth(t: Instant, year: int, month: int) {
    t.At? && CivilOfDay(DayOf(t)).year == year && CivilOfDay(DayOf(t)).month == month
  }
}

=== FILE: entries.dfy ===
/** The activity records the whole application reads: one row of the
    `activity_entries` table, with every column some part of the program selects. */
module Entries {

  import opened Types
  import opened CivilDate

  /** The `type` column. Rows whose type is none of the three known names are
      kept and fall through every type test. */
  datatype ActivityKind = Preaching | BibleCourse | SacredService | OtherKind(tag: string)

  /** One activity record. `date` is `activity_date`; `startTime` and `endTime`
      are the `HH:MM:SS` texts of the time columns. */
  datatype ActivityEntry = ActivityEntry(
    id: string,
    date: Date,
    kind: ActivityKind,
    minutes: Option<int>,
    title: Option<string>,
    personId: Option<string>,
    startTime: Option<string>,
    endTime: Option<string>)

  /** A nullable text used as a condition: neither null nor empty. */
  predicate PresentText(t: Option<string>) {
    t.Some? && t.value != ""
  }
}

=== FILE: js_text.dfy ===
/** The few JavaScript string and number conversions the application relies on:
    `Number(text)`, `parseInt(text, 10)`, `text.split(":")`, `text.trim()` and
    the truthiness of strings and numbers. */
module JsText {

  /** A JavaScript number as far as the application uses one: an integer or NaN. */
  datatype JsNumber = Num(value: int) | NaN {

    /** `x || 0` on a number: NaN and 0 are falsy. */
    function OrZero(): int {
      if Num? then value else 0
    }
  }

  /** Truthiness of a number: neither 0 nor NaN. */
  predicate Truthy(n: JsNumber) {
    n.Num? && n.value != 0
  }

  predicate IsDigit(c: char) {
    '0' <= c <= '9'
  }

  predicate AllDigits(s: string) {
    forall i :: 0 <= i < |s| ==> IsDigit(s[i])
  }

  function DigitValue(c: char): int
    requires IsDigit(c)
  {
    c as int - '0' as int
  }

  /** The value of a decimal numeral, most significant digit first. */
  function DigitsValue(s: string): (n: nat)
    requires AllDigits(s)
  {
    if |s| == 0 then 0 else DigitsValue(s[..|s| - 1]) * 10 + DigitValue(s[|s| - 1])
  }

  /** `Number(text)` for the texts the application feeds it: a numeral of decimal
      digits converts to its value, the empty text converts to 0, and every other
      text is NaN. */
  function NumberOf(s: string): (r: JsNumber)
    ensures r.Num? <==> AllDigits(s)
    ensures r.Num? ==> r.value >= 0
    ensures s == "" ==> r == Num(0)
  {
    if AllDigits(s) then Num(DigitsValue(s)) else NaN
  }

  /** The two-digit numeral of `n` (`String(n).padStart(2, "0")`, date-fns `HH`/`mm`). */
  function Pad2(n: int): (s: string)
    requires 0 <= n < 100
    ensures |s| == 2 && AllDigits(s)
  {
    ['0' + ((n / 10) as char), '0' + ((n % 10) as char)]
  }

  /** Reading back a two-digit numeral gives the number that was written. */
  lemma Pad2RoundTrip(n: int)
    requires 0 <= n < 100
    ensures NumberOf(Pad2(n)) == Num(n)
  {
    var s := Pad2(n);
    assert s[..1] == [s[0]];
    assert DigitsValue(s[..1]) == DigitValue(s[0]) by {
      assert s[..1][..0] == [];
    }
  }

  /** `String(n)` of a natural number: its decimal numeral without leading zeros. */
  function DecimalText(n: nat): (s: string)
    ensures |s| >= 1 && AllDigits(s)
    ensures DigitsValue(s) == n
    ensures |s| > 1 ==> s[0] != '0'
  {
    var last := ['0' + ((n % 10) as char)];
    if n < 10 then
      assert last[..0] == [];
      last
    else
      var init := DecimalText(n / 10);
      var s := init + last;
      assert s[..|s| - 1] == init;
      s
  }

  /** `String(n)` of an integer. */
  function IntText(n: int): (s: string)
    ensures |s| >= 1
  {
    if n < 0 then "-" + DecimalText(-n) else DecimalText(n)
  }

  /** `parseInt(String(n), 10)` gives `n` back. */
  lemma {:induction false} ParseIntOfIntText(n: int)
    ensures ParseInt(IntText(n)) == Num(n)
  {
    if n < 0 {
      var d := DecimalText(-n);
      NegativeNumeral(d);
    } else {
      var d := DecimalText(n);
      ParseIntOfNumeral(d);
    }
  }

  /** A minus sign before a numeral negates its value. */
  lemma {:induction false} NegativeNumeral(d: string)
    requires |d| >= 1 && AllDigits(d)
    ensures ParseInt("-" + d) == Num(0 - DigitsValue(d) as int)
  {
    var s := "-" + d;
    assert !IsSpace(s[0]);
    assert TrimStart(s) == s;
    assert s[1..] == d;
    DigitPrefixOfNumeral(d);
  }

  // ---------------------------------------------------------------- split

  /** `s.split(sep)` for a one-character separator. */
  function Split(s: string, sep: char): (parts: seq<string>)
    ensures |parts| >= 1
    ensures forall i :: 0 <= i < |parts| ==> sep !in parts[i]
    ensures Join(parts, sep) == s
  {
    if |s| == 0 then [""]
    else
      var rest := Split(s[1..], sep);
      if s[0] == sep then
        assert Join([""] + rest, sep) == [sep] + Join(rest, sep) by {
          assert ([""] + rest)[1..] == rest;
        }
        [""] + rest
      else
        JoinHead(rest, sep);
        var parts := [[s[0]] + rest[0]] + rest[1..];
        JoinHead(parts, sep);
        assert parts[1..] == rest[1..];
        parts
  }

  /** The inverse of `Split`: the parts glued back with the separator. */
  function Join(parts: seq<string>, sep: char): string
    requires |parts| >= 1
  {
    if |parts| == 1 then parts[0] else parts[0] + [sep] + Join(parts[1..], sep)
  }

  /** `Join` takes its head part unchanged. */
  lemma JoinHead(parts: seq<string>, sep: char)
    requires |parts| >= 1
    ensures |parts| == 1 ==> Join(parts, sep) == parts[0]
    ensures |parts| > 1 ==> Join(parts, sep) == parts[0] + [sep] + Join(parts[1..], sep)
  {
  }

  /** Splitting a text that holds no separator gives the text back as its one part. */
  lemma {:induction false} SplitNoSeparator(s: string, sep: char)
    requires sep !in s
    ensures Split(s, sep) == [s]
  {
    if |s| > 0 {
      assert sep !in s[1..] by {
        forall i | 0 <= i < |s[1..]| ensures s[1..][i] != sep {
          assert s[1..][i] == s[i + 1];
        }
      }
      SplitNoSeparator(s[1..], sep);
      assert [s[0]] + s[1..] == s;
    }
  }

  /** A separator-free head is split off as the first part. */
  lemma {:induction false} SplitAfterHead(a: string, sep: char, rest: string)
    requires sep !in a
    ensures Split(a + [sep] + rest, sep) == [a] + Split(rest, sep)
  {
    var s := a + [sep] + rest;
    if |a| == 0 {
      assert s[0] == sep;
      assert s[1..] == rest;
    } else {
      assert s[0] == a[0] && s[0] != sep;
      assert s[1..] == a[1..] + [sep] + rest;
      assert sep !in a[1..] by {
        forall i | 0 <= i < |a[1..]| ensures a[1..][i] != sep {
          assert a[1..][i] == a[i + 1];
        }
      }
      SplitAfterHead(a[1..], sep, rest);
      assert [a[0]] + a[1..] == a;
    }
  }

  // ---------------------------------------------------------------- time texts

  /** The `HH:MM` text of a time input. */
  function HourMinuteText(h: int, m: int): (s: string)
    requires 0 <= h < 100 && 0 <= m < 100
    ensures |s| == 5 && s[2] == ':'
  {
    Pad2(h) + ":" + Pad2(m)
  }

  /** `HH:MM:SS`, the form the time columns are stored in. */
  function ClockText(h: int, m: int): string
    requires 0 <= h < 100 && 0 <= m < 100
  {
    HourMinuteText(h, m) + ":00"
  }

  /** The two fields of an `HH:MM` text. */
  lemma HourMinuteFields(h: int, m: int)
    requires 0 <= h < 100 && 0 <= m < 100
    ensures Split(HourMinuteText(h, m), ':') == [Pad2(h), Pad2(m)]
  {
    var a := Pad2(h);
    var b := Pad2(m);
    assert ':' !in a && ':' !in b;
    assert HourMinuteText(h, m) == a + [':'] + b;
    SplitAfterHead(a, ':', b);
    SplitNoSeparator(b, ':');
  }

  /** The three fields of a clock text. */
  lemma ClockTextFields(h: int, m: int)
    requires 0 <= h < 100 && 0 <= m < 100
    ensures Split(ClockText(h, m), ':') == [Pad2(h), Pad2(m), "00"]
  {
    var a := Pad2(h);
    var b := Pad2(m);
    assert ':' !in a && ':' !in b && ':' !in "00";
    assert ClockText(h, m) == a + [':'] + (b + [':'] + "00");
    SplitAfterHead(a, ':', b + [':'] + "00");
    SplitAfterHead(b, ':', "00");
    SplitNoSeparator("00", ':');
  }

  /** The field `idx` of a time text as `Number`, NaN when the text has no such field. */
  function FieldOrNaN(parts: seq<string>, idx: nat): JsNumber {
    if idx < |parts| then NumberOf(parts[idx]) else NaN
  }

  // ---------------------------------------------------------------- trim

  /** The characters `String.prototype.trim` removes: ECMAScript WhiteSpace and
      LineTerminator (TAB, VT, FF, SPACE, NBSP, ZWNBSP, the other Zs space
      separators, LF, CR, LS and PS). */
  predicate IsSpace(c: char) {
    || c == '\t' || c == '\n' || c == '\U{B}' || c == '\U{C}' || c == '\r'
    || c == ' ' || c == '\U{A0}' || c == '\U{1680}'
    || ('\U{2000}' <= c <= '\U{200A}')
    || c == '\U{2028}' || c == '\U{2029}' || c == '\U{202F}' || c == '\U{205F}'
    || c == '\U{3000}' || c == '\U{FEFF}'
  }

  predicate AllSpace(s: string) {
    forall i :: 0 <= i < |s| ==> IsSpace(s[i])
  }

  /** The white space of `s` between `lo` and `hi`. */
  predicate SpacesIn(s: string, lo: int, hi: int)
    requires 0 <= lo && hi <= |s|
  {
    forall k :: lo <= k < hi ==> IsSpace(s[k])
  }

  /** The end of the run of white space that starts at `from`. */
  function LeadingEnd(s: string, from: nat): (k: nat)
    requires from <= |s|
    ensures from <= k <= |s|
    ensures SpacesIn(s, from, k)
    ensures k == |s| || !IsSpace(s[k])
    decreases |s| - from
  {
    if from < |s| && IsSpace(s[from]) then LeadingEnd(s, from + 1) else from
  }

  /** The start of the run of white space that ends at `upto`, not going below `lo`. */
  function TrailingStart(s: string, lo: nat, upto: nat): (k: nat)
    requires lo <= upto <= |s|
    ensures lo <= k <= upto
    ensures SpacesIn(s, k, upto)
    ensures k == lo || !IsSpace(s[k - 1])
    decreases upto
  {
    if upto > lo && IsSpace(s[upto - 1]) then TrailingStart(s, lo, upto - 1) else upto
  }

  /** The text without its leading white space. */
  function TrimStart(s: string): (r: string)
    ensures |r| <= |s| && r == s[|s| - |r|..]
    ensures SpacesIn(s, 0, |s| - |r|)
    ensures r == [] || !IsSpace(r[0])
  {
    s[LeadingEnd(s, 0)..]
  }

  /** `s.trim()`: the slice of `s` that neither starts nor ends with white space,
      everything cut off on either side being white space. */
  function Trim(s: string): (r: string)
    ensures exists i :: 0 <= i <= |s| - |r| && r == s[i..i + |r|] && SpacesIn(s, 0, i) && SpacesIn(s, i + |r|, |s|)
    ensures r == [] || (!IsSpace(r[0]) && !IsSpace(r[|r| - 1]))
  {
    var i := LeadingEnd(s, 0);
    var j := TrailingStart(s, i, |s|);
    assert s[i..j] == s[i..i + (j - i)];
    s[i..j]
  }

  /** Trimming twice changes nothing more than trimming once. */
  lemma TrimIdempotent(s: string)
    ensures Trim(Trim(s)) == Trim(s)
  {
  }

  /** A text trims to nothing exactly when it is all white space — the test behind
      every `!text.trim()` check. */
  lemma TrimEmptyIff(s: string)
    ensures Trim(s) == [] <==> AllSpace(s)
  {
    var r := Trim(s);
    var i :| 0 <= i <= |s| - |r| && r == s[i..i + |r|] && SpacesIn(s, 0, i) && SpacesIn(s, i + |r|, |s|);
    if r == [] {
      assert SpacesIn(s, 0, |s|);
    }
  }

  // ---------------------------------------------------------------- parseInt

  /** The longest prefix of decimal digits. */
  function DigitPrefix(s: string): (p: string)
    ensures |p| <= |s| && p == s[..|p|] && AllDigits(p)
    ensures |p| == |s| || !IsDigit(s[|p|])
  {
    if |s| > 0 && IsDigit(s[0]) then [s[0]] + DigitPrefix(s[1..]) else []
  }

  /** `parseInt(s, 10)`: leading white space is skipped, one optional sign is read,
      then the longest run of decimal digits; no digit at all gives NaN. */
  function ParseInt(s: string): (r: JsNumber)
    ensures var t := TrimStart(s);
            var body := if |t| > 0 && (t[0] == '-' || t[0] == '+') then t[1..] else t;
            r.Num? <==> |body| > 0 && IsDigit(body[0])
  {
    var t := TrimStart(s);
    var negative := |t| > 0 && t[0] == '-';
    var body := if |t| > 0 && (t[0] == '-' || t[0] == '+') then t[1..] else t;
    var digits := DigitPrefix(body);
    if |digits| == 0 then NaN
    else
      var magnitude: int := DigitsValue(digits);
      if negative then Num(-magnitude) else Num(magnitude)
  }

  /** On a non-empty numeral `parseInt` and `Number` agree. */
  lemma {:induction false} ParseIntOfNumeral(s: string)
    requires |s| > 0 && AllDigits(s)
    ensures ParseInt(s) == NumberOf(s)
  {
    assert IsDigit(s[0]) && !IsSpace(s[0]);
    assert LeadingEnd(s, 0) == 0;
    assert TrimStart(s) == s;
    DigitPrefixOfNumeral(s);
  }

  lemma {:induction false} DigitPrefixOfNumeral(s: string)
    requires AllDigits(s)
    ensures DigitPrefix(s) == s
  {
    if |s| > 0 {
      DigitPrefixOfNumeral(s[1..]);
      assert [s[0]] + s[1..] == s;
    }
  }
}

=== FILE: reports.dfy ===
/** The report library: the theocratic calendar (September-based years of
    twelve month indexes), the per-month aggregation of activity records, and the
    sequential generation of monthly reports whose sub-hour minutes carry over
    from one month to the next. */
module Reports {

  import opened Types
  import opened CivilDate
  import opened Entries

  /** The month that opens a theocratic year: September. */
  const TheocraticStartMonth: Month0 := 8
  const MonthsPerYear := 12
  const MinutesPerHour := 60

  // ------------------------------------------------------------ calendar

  /** The theocratic year that starts in September of `y` runs up to, and not
      including, September 1 of `y + 1`. */
  predicate InTheocraticYear(d: Date, y: int) {
    NotAfter(Date(y, TheocraticStartMonth, 1), d) && Before(d, Date(y + 1, TheocraticStartMonth, 1))
  }

  /** The theocratic year a date belongs to, named by the calendar year of its
      September; its month index is always one of 0..11. */
  function TheocraticYearBase(d: Date): (y: int)
    ensures d.day >= 1 ==> InTheocraticYear(d, y)
    ensures 0 <= MonthIndexFromDate(y, d) < MonthsPerYear
  {
    if d.month >= TheocraticStartMonth then d.year else d.year - 1
  }

  /** No other year claims the date: the base year is the only theocratic year
      that holds it. */
  lemma TheocraticYearUnique(d: Date, y: int)
    requires d.day >= 1
    ensures InTheocraticYear(d, y) <==> y == TheocraticYearBase(d)
  {
  }

  /** The number of months from September of `baseYear` to the month of `d`:
      the first of that month is the date `new Date(baseYear, 8 + i, 1)`. */
  function MonthIndexFromDate(baseYear: int, d: Date): (i: int)
    ensures FirstOfMonth(baseYear, TheocraticStartMonth + i) == Date(d.year, d.month, 1)
  {
    var i := (d.year - baseYear) * 12 + (d.month - TheocraticStartMonth);
    assert TheocraticStartMonth + i == (d.year - baseYear) * 12 + d.month;
    i
  }

  /** A month as the half-open date interval `[start, end)`. */
  datatype MonthPeriod = MonthPeriod(start: Date, end: Date)

  predicate InPeriod(d: Date, p: MonthPeriod) {
    NotAfter(p.start, d) && Before(d, p.end)
  }

  /** The first day of month `monthIndex` of the year and the first day of the
      month after it. */
  function MonthRange(baseYear: int, monthIndex: int): (p: MonthPeriod)
    ensures p.start.day == 1 && p.end.day == 1
    ensures MonthOrdinal(p.start) == baseYear * 12 + TheocraticStartMonth + monthIndex
    ensures MonthOrdinal(p.end) == MonthOrdinal(p.start) + 1
  {
    MonthPeriod(FirstOfMonth(baseYear, TheocraticStartMonth + monthIndex),
                FirstOfMonth(baseYear, TheocraticStartMonth + monthIndex + 1))
  }

  /** Consecutive months share their boundary: one ends where the next begins. */
  lemma MonthRangesTile(baseYear: int, i: int)
    ensures MonthRange(baseYear, i).end == MonthRange(baseYear, i + 1).start
  {
  }

  /** A date lies in the range of month `i` exactly when its month index is `i`;
      so every date lies in exactly one month range. */
  lemma InMonthRangeIff(baseYear: int, i: int, d: Date)
    requires d.day >= 1
    ensures InPeriod(d, MonthRange(baseYear, i)) <==> MonthIndexFromDate(baseYear, d) == i
  {
    var p := MonthRange(baseYear, i);
    OrdinalOrder(p.start, d);
    OrdinalOrder(d, p.end);
    OrdinalOrder(d, p.start);
    assert MonthIndexFromDate(baseYear, d) == MonthOrdinal(d) - baseYear * 12 - TheocraticStartMonth;
  }

  /** The start of a month range maps back to the index it was built from. */
  lemma MonthRangeIndexRoundTrip(baseYear: int, i: int)
    ensures MonthIndexFromDate(baseYear, MonthRange(baseYear, i).start) == i
  {
    var s := MonthRange(baseYear, i).start;
    assert MonthIndexFromDate(baseYear, s) == MonthOrdinal(s) - baseYear * 12 - TheocraticStartMonth;
  }

  // ------------------------------------------------------------ aggregation

  /** The rows the range query returns: those dated inside the period, each as
      often as it occurs in `rows`. */
  function RowsIn(rows: seq<ActivityEntry>, p: MonthPeriod): (r: seq<ActivityEntry>)
    ensures forall e :: e in r <==> e in rows && InPeriod(e.date, p)
    ensures forall e :: multiset(r)[e] == if InPeriod(e.date, p) then multiset(rows)[e] else 0
  {
    if |rows| == 0 then []
    else
      var init := RowsIn(rows[..|rows| - 1], p);
      var last := rows[|rows| - 1];
      assert rows == rows[..|rows| - 1] + [last];
      if InPeriod(last.date, p) then init + [last] else init
  }

  /** Preaching minutes of the rows, a missing or zero `minutes` counting 0. */
  function PreachingMinutes(rows: seq<ActivityEntry>): int {
    if |rows| == 0 then 0
    else
      var last := rows[|rows| - 1];
      PreachingMinutes(rows[..|rows| - 1]) + (if last.kind == Preaching then last.minutes.GetOr(0) else 0)
  }

  /** A bible-course row that names a person (a non-empty `person_id`). */
  predicate IsStudy(e: ActivityEntry) {
    e.kind == BibleCourse && PresentText(e.personId)
  }

  /** The distinct persons studied with in the rows. */
  function StudyIds(rows: seq<ActivityEntry>): set<string> {
    set e | e in rows && IsStudy(e) :: e.personId.value
  }

  datatype MonthAggregate = MonthAggregate(totalMinutes: int, distinctStudies: int)

  /** What `aggregateMonth` computes for a period, stated over the whole row set. */
  function Aggregate(rows: seq<ActivityEntry>, p: MonthPeriod): MonthAggregate {
    var inMonth := RowsIn(rows, p);
    MonthAggregate(PreachingMinutes(inMonth), |StudyIds(inMonth)|)
  }

  /** Sacred-service and bible-course rows never add preaching minutes. */
  lemma {:induction false} PreachingIgnoresOtherKinds(rows: seq<ActivityEntry>, others: seq<ActivityEntry>)
    requires forall e :: e in others ==> e.kind != Preaching
    ensures PreachingMinutes(rows + others) == PreachingMinutes(rows)
  {
    if |others| > 0 {
      var init := others[..|others| - 1];
      assert (rows + others)[..|rows + others| - 1] == rows + init;
      var last := others[|others| - 1];
      assert last in others;
      PreachingIgnoresOtherKinds(rows, init);
      assert PreachingMinutes(rows + others) == PreachingMinutes(rows + init) + 0;
    } else {
      assert rows + others == rows;
    }
  }

  /** One more row extends the month's rows when it is dated inside the period. */
  lemma RowsInSnoc(rows: seq<ActivityEntry>, r: ActivityEntry, p: MonthPeriod)
    ensures RowsIn(rows + [r], p) == RowsIn(rows, p) + (if InPeriod(r.date, p) then [r] else [])
  {
    assert (rows + [r])[..|rows|] == rows;
  }

  /** One more row adds its own preaching minutes. */
  lemma PreachingMinutesSnoc(rows: seq<ActivityEntry>, r: ActivityEntry)
    ensures PreachingMinutes(rows + [r]) == PreachingMinutes(rows) + (if r.kind == Preaching then r.minutes.GetOr(0) else 0)
  {
    assert (rows + [r])[..|rows|] == rows;
  }

  /** One more row adds at most its own person. */
  lemma StudyIdsSnoc(rows: seq<ActivityEntry>, r: ActivityEntry)
    ensures StudyIds(rows + [r]) == StudyIds(rows) + (if IsStudy(r) then {r.personId.value} else {})
  {
    assert forall e :: e in rows + [r] <==> e in rows || e == r;
  }

  /** The step of the aggregation loop: a row of the period adds its preaching
      minutes and its person, any other row adds nothing. */
  lemma AggregateStep(rows: seq<ActivityEntry>, r: ActivityEntry, p: MonthPeriod)
    ensures PreachingMinutes(RowsIn(rows + [r], p))
         == PreachingMinutes(RowsIn(rows, p)) + (if InPeriod(r.date, p) && r.kind == Preaching then r.minutes.GetOr(0) else 0)
    ensures StudyIds(RowsIn(rows + [r], p))
         == StudyIds(RowsIn(rows, p)) + (if InPeriod(r.date, p) && IsStudy(r) then {r.personId.value} else {})
  {
    RowsInSnoc(rows, r, p);
    if InPeriod(r.date, p) {
      PreachingMinutesSnoc(RowsIn(rows, p), r);
      StudyIdsSnoc(RowsIn(rows, p), r);
    } else {
      assert RowsIn(rows, p) + [] == RowsIn(rows, p);
    }
  }

  /** `aggregateMonth(baseYear, monthIndex)`: one pass over the rows the query
      returns, adding preaching minutes and collecting the persons of bible
      courses. */
  method AggregateMonth(rows: seq<ActivityEntry>, baseYear: int, monthIndex: int)
    returns (agg: MonthAggregate)
    ensures agg == Aggregate(rows, MonthRange(baseYear, monthIndex))
  {
    agg := AggregatePeriod(rows, MonthRange(baseYear, monthIndex));
  }

  /** The aggregation step stated on prefixes of the row list. */
  lemma AggregatePrefixStep(rows: seq<ActivityEntry>, k: int, p: MonthPeriod)
    requires 0 <= k < |rows|
    ensures PreachingMinutes(RowsIn(rows[..k + 1], p))
         == PreachingMinutes(RowsIn(rows[..k], p))
            + (if InPeriod(rows[k].date, p) && rows[k].kind == Preaching then rows[k].minutes.GetOr(0) else 0)
    ensures StudyIds(RowsIn(rows[..k + 1], p))
         == StudyIds(RowsIn(rows[..k], p)) + (if InPeriod(rows[k].date, p) && IsStudy(rows[k]) then {rows[k].personId.value} else {})
  {
    assert rows[..k + 1] == rows[..k] + [rows[k]];
    AggregateStep(rows[..k], rows[k], p);
  }

  /** The loop of `aggregateMonth` over the rows of one period. */
  method AggregatePeriod(rows: seq<ActivityEntry>, p: MonthPeriod) returns (agg: MonthAggregate)
    ensures agg == Aggregate(rows, p)
  {
    var totalMinutes := 0;
    var ids: set<string> := {};
    var k := 0;
    while k < |rows|
      invariant 0 <= k <= |rows|
      invariant totalMinutes == PreachingMinutes(RowsIn(rows[..k], p))
      invariant ids == StudyIds(RowsIn(rows[..k], p))
    {
      var r := rows[k];
      AggregatePrefixStep(rows, k, p);
      if InPeriod(r.date, p) && r.kind == Preaching {
        totalMinutes := totalMinutes + r.minutes.GetOr(0);
      }
      if InPeriod(r.date, p) && r.kind == BibleCourse && PresentText(r.personId) {
        ids := ids + {r.personId.value};
      }
      k := k + 1;
    }
    assert rows[..k] == rows;
    agg := MonthAggregate(totalMinutes, |ids|);
  }

  // ------------------------------------------------------------ reports

  /** A row of the `monthly_reports` table (owner and creation time left out). */
  datatype Report = Report(
    id: string,
    periodYear: int,
    monthIndex: int,
    periodStart: Date,
    periodEnd: Date,
    totalMinutes: int,
    carriedInMinutes: int,
    carriedOutMinutes: int,
    wholeHours: int,
    leftoverMinutes: int,
    effectiveMinutes: int,
    distinctStudies: int,
    locked: bool,
    comments: Option<string>)

  datatype HoursAndMinutes = HoursAndMinutes(wholeHours: int, leftover: int)

  /** JavaScript's `a % b` for a positive `b`: the remainder takes the sign of `a`. */
  function JsRemainder(a: int, b: int): (r: int)
    requires b > 0
    ensures a >= 0 ==> 0 <= r < b
    ensures a < 0 ==> -b < r <= 0
    ensures a - r == b * (if a >= 0 then a / b else -((-a) / b))
  {
    if a >= 0 then a % b else -((-a) % b)
  }

  /** `Math.floor(effective / 60)` and `effective % 60` exactly as the generator
      writes them. */
  function SplitAsWritten(effective: int): HoursAndMinutes {
    HoursAndMinutes(effective / MinutesPerHour, JsRemainder(effective, MinutesPerHour))
  }

  /** For a negative total that is not a whole number of hours the two halves no
      longer add up: an hour too few is counted and the leftover is negative. */
  lemma SplitAsWrittenLosesAnHour(effective: int)
    requires effective < 0 && effective % MinutesPerHour != 0
    ensures SplitAsWritten(effective).leftover < 0
    ensures SplitAsWritten(effective).wholeHours * MinutesPerHour + SplitAsWritten(effective).leftover
            == effective - MinutesPerHour
  {
    var q := effective / MinutesPerHour;
    var m := effective % MinutesPerHour;
    assert effective == q * MinutesPerHour + m;
    var a := -effective;
    assert a == (-q - 1) * MinutesPerHour + (MinutesPerHour - m);
    assert 0 < MinutesPerHour - m < MinutesPerHour;
    assert a % MinutesPerHour == MinutesPerHour - m;
  }

  /** Whole hours and leftover minutes of a minute total: the leftover is always
      under an hour and the two recombine to the total. */
  function SplitMinutes(effective: int): (r: HoursAndMinutes)
    ensures r.wholeHours * MinutesPerHour + r.leftover == effective
    ensures 0 <= r.leftover < MinutesPerHour
  {
    HoursAndMinutes(effective / MinutesPerHour, effective % MinutesPerHour)
  }

  /** On the totals real activity produces (never negative) the corrected split
      is the one the generator computes. */
  lemma SplitsAgreeWhenNotNegative(effective: int)
    requires effective >= 0
    ensures SplitAsWritten(effective) == SplitMinutes(effective)
  {
  }

  /** The first store call of a generation that fails, with the store's error
      message: reading the year's reports, the month's activity query, or the
      insert of the new report. */
  datatype StoreFailure = ReadFailed(message: string) | QueryFailed(message: string) | InsertFailed(message: string)

  datatype GenerateError = NotAuthenticated | AllMonthsClosed | StoreError(message: string)

  function GenerateErrorMessage(e: GenerateError): string {
    match e
    case NotAuthenticated => "No autenticado"
    case AllMonthsClosed => "Todos los meses ya están cerrados"
    case StoreError(message) => message
  }

  /** The carry a new report starts from: nothing for the first month, otherwise
      what the last existing report carried out. */
  function CarryIn(ledger: seq<Report>): int {
    if |ledger| == 0 then 0 else ledger[|ledger| - 1].carriedOutMinutes
  }

  /** `generateMonthlyReportSequential(baseYear)`: `session` is the signed-in
      user, `ledger` the year's reports ordered by month index, `rows` the
      activity records, `newId` the identifier the store gives the new row and
      `failure` the store call that throws, if one does. The reports are read
      before the full-year check; the activity query and the insert come after
      it. */
  function GenerateReport(session: Option<string>, baseYear: int, ledger: seq<Report>,
                          rows: seq<ActivityEntry>, newId: string, failure: Option<StoreFailure>)
    : (r: Result<Report, GenerateError>)
    ensures session.None? ==> r == Err(NotAuthenticated)
    ensures session.Some? && failure.Some? && failure.value.ReadFailed? ==> r == Err(StoreError(failure.value.message))
    ensures session.Some? && !(failure.Some? && failure.value.ReadFailed?) && |ledger| >= MonthsPerYear ==>
      r == Err(AllMonthsClosed)
    ensures session.Some? && failure.Some? && |ledger| < MonthsPerYear ==> r == Err(StoreError(failure.value.message))
    ensures r.Ok? <==> session.Some? && |ledger| < MonthsPerYear && failure.None?
    ensures r.Ok? ==> var rep := r.value;
      && rep.id == newId
      && rep.monthIndex == |ledger|
      && rep.periodYear == baseYear
      && rep.periodStart == MonthRange(baseYear, |ledger|).start
      && rep.periodEnd == MonthRange(baseYear, |ledger|).end
      && rep.carriedInMinutes == CarryIn(ledger)
      && rep.effectiveMinutes == rep.totalMinutes + rep.carriedInMinutes
      && rep.wholeHours * MinutesPerHour + rep.leftoverMinutes == rep.effectiveMinutes
      && 0 <= rep.leftoverMinutes < MinutesPerHour
      && rep.carriedOutMinutes == rep.leftoverMinutes
      && rep.locked
      && rep.totalMinutes == PreachingMinutes(RowsIn(rows, MonthRange(baseYear, |ledger|)))
      && rep.distinctStudies == |StudyIds(RowsIn(rows, MonthRange(baseYear, |ledger|)))|
      && rep.comments.None?
    ensures r.Ok? && r.value.effectiveMinutes >= 0 ==>
      HoursAndMinutes(r.value.wholeHours, r.value.leftoverMinutes) == SplitAsWritten(r.value.effectiveMinutes)
  {
    if session.None? then Err(NotAuthenticated)
    else if failure.Some? && failure.value.ReadFailed? then Err(StoreError(failure.value.message))
    else
      var nextIndex := |ledger|;
      if nextIndex > 11 then Err(AllMonthsClosed)
      else if failure.Some? then Err(StoreError(failure.value.message))
      else
        var agg := Aggregate(rows, MonthRange(baseYear, nextIndex));
        var carriedIn := CarryIn(ledger);
        var effective := agg.totalMinutes + carriedIn;
        var split := SplitMinutes(effective);
        var p := MonthRange(baseYear, nextIndex);
        Ok(Report(
          id := newId,
          periodYear := baseYear,
          monthIndex := nextIndex,
          periodStart := p.start,
          periodEnd := p.end,
          totalMinutes := agg.totalMinutes,
          carriedInMinutes := carriedIn,
          carriedOutMinutes := split.leftover,
          wholeHours := split.wholeHours,
          leftoverMinutes := split.leftover,
          effectiveMinutes := effective,
          distinctStudies := agg.distinctStudies,
          locked := true,
          comments := None))
  }

  // ------------------------------------------------------------ the ledger

  /** The arithmetic every report keeps. */
  predicate ConsistentReport(rep: Report) {
    && rep.effectiveMinutes == rep.totalMinutes + rep.carriedInMinutes
    && rep.wholeHours * MinutesPerHour + rep.leftoverMinutes == rep.effectiveMinutes
    && 0 <= rep.leftoverMinutes < MinutesPerHour
    && rep.carriedOutMinutes == rep.leftoverMinutes
  }

  /** A year's ledger: at most twelve reports, numbered 0, 1, 2, … in order, each
      consistent, the first carrying nothing in and every later one carrying in
      exactly what its predecessor carried out. */
  predicate ChainedLedger(ledger: seq<Report>) {
    && |ledger| <= MonthsPerYear
    && (forall i :: 0 <= i < |ledger| ==> ledger[i].monthIndex == i && ConsistentReport(ledger[i]))
    && (|ledger| > 0 ==> ledger[0].carriedInMinutes == 0)
    && (forall i :: 0 < i < |ledger| ==> ledger[i].carriedInMinutes == ledger[i - 1].carriedOutMinutes)
  }

  /** Generating a report and appending it keeps the ledger chained, and leaves
      the existing reports as they were. */
  lemma GenerateKeepsChain(session: Option<string>, baseYear: int, ledger: seq<Report>,
                           rows: seq<ActivityEntry>, newId: string, failure: Option<StoreFailure>)
    requires ChainedLedger(ledger)
    requires GenerateReport(session, baseYear, ledger, rows, newId, failure).Ok?
    ensures var next := ledger + [GenerateReport(session, baseYear, ledger, rows, newId, failure).value];
      ChainedLedger(next) && next[..|ledger|] == ledger
  {
    var rep := GenerateReport(session, baseYear, ledger, rows, newId, failure).value;
    var next := ledger + [rep];
    assert next[..|ledger|] == ledger;
    forall i | 0 <= i < |next|
      ensures next[i].monthIndex == i && ConsistentReport(next[i])
    {
      if i < |ledger| {
        assert next[i] == ledger[i];
      }
    }
  }

  /** The ledger after generating once per identifier with every store call
      succeeding, stopping nothing on error (a refused generation leaves the
      ledger as it was). */
  function GenerateAll(user: string, baseYear: int, rows: seq<ActivityEntry>, ids: seq<string>): seq<Report> {
    if |ids| == 0 then []
    else
      var ledger := GenerateAll(user, baseYear, rows, ids[..|ids| - 1]);
      match GenerateReport(Some(user), baseYear, ledger, rows, ids[|ids| - 1], None)
      case Ok(rep) => ledger + [rep]
      case Err(_) => ledger
  }

  /** Repeated generation from an empty ledger numbers the months 0, 1, 2, …,
      stops at twelve, and chains every carry. */
  lemma {:induction false} GenerateAllIsChained(user: string, baseYear: int, rows: seq<ActivityEntry>, ids: seq<string>)
    ensures var ledger := GenerateAll(user, baseYear, rows, ids);
      ChainedLedger(ledger) && |ledger| == if |ids| < MonthsPerYear then |ids| else MonthsPerYear
  {
    if |ids| > 0 {
      var init := ids[..|ids| - 1];
      GenerateAllIsChained(user, baseYear, rows, init);
      var ledger := GenerateAll(user, baseYear, rows, init);
      var g := GenerateReport(Some(user), baseYear, ledger, rows, ids[|ids| - 1], None);
      if g.Ok? {
        GenerateKeepsChain(Some(user), baseYear, ledger, rows, ids[|ids| - 1], None);
      }
    }
  }
}

=== FILE: reports_page.dfy ===
/** The reports page: which month is generated next, which report may be
    unlocked, where a recalculation starts, how the year's totals are read, and
    how the displayed list changes after generating, unlocking and editing
    comments. Store calls are parameters: what they return is given, not
    computed. */
module ReportsPage {

  import opened Types
  import opened Entries
  import opened Reports

  /** The month index the next generation creates. */
  function NextIndex(reports: seq<Report>): int {
    |reports|
  }

  /** The generate buttons are enabled exactly when the store-side generation
      would not refuse for a full year. */
  predicate CanGenerate(reports: seq<Report>) {
    NextIndex(reports) < MonthsPerYear
  }

  /** The page offers generation exactly when the library, given a signed-in user
      and a store that answers every call, produces a report. */
  lemma CanGenerateIffGenerates(user: string, baseYear: int, reports: seq<Report>,
                                rows: seq<ActivityEntry>, newId: string)
    ensures CanGenerate(reports) <==> GenerateReport(Some(user), baseYear, reports, rows, newId, None).Ok?
  {
  }

  /** `handleGenerate`: on success the report the library returns is appended at
      the end of the list; on any failure the list is left as it was. */
  function HandleGenerate(session: Option<string>, baseYear: int, reports: seq<Report>,
                          rows: seq<ActivityEntry>, newId: string, failure: Option<StoreFailure>)
    : (r: seq<Report>)
    ensures var g := GenerateReport(session, baseYear, reports, rows, newId, failure);
      && (g.Ok? ==> r == reports + [g.value])
      && (g.Err? ==> r == reports)
    ensures |r| == |reports| + (if session.Some? && CanGenerate(reports) && failure.None? then 1 else 0)
    ensures r[..|reports|] == reports
    ensures |r| > |reports| ==> r[|reports|].monthIndex == |reports| && r[|reports|].locked
    ensures ChainedLedger(reports) ==> ChainedLedger(r)
  {
    match GenerateReport(session, baseYear, reports, rows, newId, failure)
    case Ok(rep) =>
      assert ChainedLedger(reports) ==> ChainedLedger(reports + [rep]) by {
        if ChainedLedger(reports) {
          GenerateKeepsChain(session, baseYear, reports, rows, newId, failure);
        }
      }
      assert (reports + [rep])[..|reports|] == reports;
      reports + [rep]
    case Err(_) => reports
  }

  // ------------------------------------------------------------ unlock

  /** What the unlock action decides before calling the store. */
  datatype UnlockDecision = NoReports | AlreadyUnlocked | UnlockLast(id: string, monthIndex: int)

  /** Only the last report is ever the target: nothing happens on an empty list,
      and an already unlocked last report only produces an alert. */
  function UnlockTarget(reports: seq<Report>): (d: UnlockDecision)
    ensures d == NoReports <==> |reports| == 0
    ensures d == AlreadyUnlocked <==> |reports| > 0 && !reports[|reports| - 1].locked
    ensures d.UnlockLast? ==> |reports| > 0 && reports[|reports| - 1].locked
                              && d.id == reports[|reports| - 1].id
                              && d.monthIndex == reports[|reports| - 1].monthIndex
  {
    if |reports| == 0 then NoReports
    else
      var last := reports[|reports| - 1];
      if !last.locked then AlreadyUnlocked else UnlockLast(last.id, last.monthIndex)
  }

  /** `rs.map((r) => (r.id === updated.id ? updated : r))`: every report with the
      returned id is replaced, every other report is kept. */
  function ReplaceById(reports: seq<Report>, updated: Report): (r: seq<Report>)
    ensures |r| == |reports|
    ensures forall i :: 0 <= i < |r| && reports[i].id != updated.id ==> r[i] == reports[i]
    ensures forall i :: 0 <= i < |r| && reports[i].id == updated.id ==> r[i] == updated
  {
    seq(|reports|, i requires 0 <= i < |reports| =>
      if reports[i].id == updated.id then updated else reports[i])
  }

  predicate DistinctIds(reports: seq<Report>) {
    forall i, j :: 0 <= i < j < |reports| ==> reports[i].id != reports[j].id
  }

  /** `s.includes(part)` */
  predicate Contains(s: string, part: string) {
    |part| <= |s| && (s[..|part|] == part || Contains(s[1..], part))
  }

  const PermissionDenied :=
    "Permiso denegado por RLS. Debes crear la policy UPDATE en monthly_reports. Consulta instrucciones en la consola SQL."
  const RowSecurityBlocks := "RLS impide la acción. Falta una policy UPDATE para monthly_reports."

  const AlreadyUnlockedAlert := "El último informe ya está desbloqueado."
  const UnlockedAlert := "Mes desbloqueado. Añade/edita actividades y luego usa 'Recalcular' para cerrar nuevamente."

  /** The message shown when the store refuses the unlock. */
  function UnlockFailureMessage(raw: string): (m: string)
    ensures Contains(raw, "permission") || Contains(raw, "denied") ==> m == PermissionDenied
    ensures !Contains(raw, "permission") && !Contains(raw, "denied") && Contains(raw, "row-level security")
            ==> m == RowSecurityBlocks
    ensures !Contains(raw, "permission") && !Contains(raw, "denied") && !Contains(raw, "row-level security")
            ==> m == raw
  {
    if Contains(raw, "permission") || Contains(raw, "denied") then PermissionDenied
    else if Contains(raw, "row-level security") then RowSecurityBlocks
    else raw
  }

  /** A text contains its own prefixes. */
  lemma ContainsPrefix(part: string, rest: string)
    ensures Contains(part + rest, part)
  {
    assert (part + rest)[..|part|] == part;
  }

  /** Every store error that starts "permission denied" (PostgreSQL's wording
      for a refused table privilege) is explained with the RLS policy hint. */
  lemma PermissionErrorsAreExplained(rest: string)
    ensures UnlockFailureMessage("permission denied" + rest) == PermissionDenied
  {
    ContainsPrefix("permission", " denied" + rest);
    assert "permission denied" + rest == "permission" + (" denied" + rest);
  }

  /** The page's report list, the pending recalculation start and the alert
      shown, if any. */
  datatype PageState = PageState(reports: seq<Report>, recalcFrom: Option<int>, alert: Option<string>)

  /** `handleUnlock`: `reply` is what the store's unlock of the target returns
      (the updated row, or the raw error text). */
  function HandleUnlock(reports: seq<Report>, recalcFrom: Option<int>, reply: Result<Report, string>): (s: PageState)
    ensures UnlockTarget(reports).UnlockLast? && reply.Ok? ==>
      s.reports == ReplaceById(reports, reply.value) && s.recalcFrom == Some(reports[|reports| - 1].monthIndex)
    ensures !(UnlockTarget(reports).UnlockLast? && reply.Ok?) ==> s.reports == reports && s.recalcFrom == recalcFrom
    ensures UnlockTarget(reports) == NoReports ==> s.alert.None?
    ensures UnlockTarget(reports) == AlreadyUnlocked ==> s.alert == Some(AlreadyUnlockedAlert)
    ensures UnlockTarget(reports).UnlockLast? && reply.Ok? ==> s.alert == Some(UnlockedAlert)
    ensures UnlockTarget(reports).UnlockLast? && reply.Err? ==> s.alert == Some(UnlockFailureMessage(reply.error))
  {
    match UnlockTarget(reports)
    case NoReports => PageState(reports, recalcFrom, None)
    case AlreadyUnlocked => PageState(reports, recalcFrom, Some(AlreadyUnlockedAlert))
    case UnlockLast(_, monthIndex) =>
      match reply
      case Ok(updated) => PageState(ReplaceById(reports, updated), Some(monthIndex), Some(UnlockedAlert))
      case Err(raw) => PageState(reports, recalcFrom, Some(UnlockFailureMessage(raw)))
  }

  /** When the store returns the last report with only its lock cleared, the list
      differs from before in that one flag only: the chain of carries is intact,
      every other report keeps its lock, and the last report is open. */
  lemma UnlockTouchesOnlyLast(reports: seq<Report>, recalcFrom: Option<int>)
    requires DistinctIds(reports) && |reports| > 0
    requires reports[|reports| - 1].locked
    ensures var last := reports[|reports| - 1];
      var s := HandleUnlock(reports, recalcFrom, Ok(last.(locked := false)));
      && s.reports == reports[..|reports| - 1] + [last.(locked := false)]
      && (ChainedLedger(reports) ==> ChainedLedger(s.reports))
      && s.recalcFrom == Some(last.monthIndex)
  {
    var n := |reports|;
    var last := reports[n - 1];
    var s := HandleUnlock(reports, recalcFrom, Ok(last.(locked := false)));
    assert s.reports == reports[..n - 1] + [last.(locked := false)] by {
      forall i | 0 <= i < n
        ensures s.reports[i] == (reports[..n - 1] + [last.(locked := false)])[i]
      {
        if i < n - 1 {
          assert reports[i].id != last.id;
        }
      }
    }
  }

  // ------------------------------------------------------------ recalculation start

  /** `handleOpenRecalc`: the smallest month index among the unlocked reports, or
      nothing (no dialog) when every report is locked. */
  function FirstUnlocked(reports: seq<Report>): (m: Option<int>)
    ensures m.None? <==> forall i :: 0 <= i < |reports| ==> reports[i].locked
    ensures m.Some? ==> exists i :: 0 <= i < |reports| && !reports[i].locked && reports[i].monthIndex == m.value
    ensures m.Some? ==> forall i :: 0 <= i < |reports| && !reports[i].locked ==> m.value <= reports[i].monthIndex
  {
    if |reports| == 0 then None
    else
      var init := reports[..|reports| - 1];
      var last := reports[|reports| - 1];
      var rest := FirstUnlocked(init);
      assert forall i :: 0 <= i < |init| ==> init[i] == reports[i];
      if last.locked then rest
      else
        match rest
        case None => Some(last.monthIndex)
        case Some(k) => Some(if last.monthIndex < k then last.monthIndex else k)
  }

  /** Right after an unlock of a fully locked ledger, the recalculation dialog
      starts from the month the unlock recorded. */
  lemma RecalcStartsAtUnlockedMonth(reports: seq<Report>, recalcFrom: Option<int>)
    requires DistinctIds(reports) && |reports| > 0
    requires forall i :: 0 <= i < |reports| ==> reports[i].locked
    ensures var last := reports[|reports| - 1];
      var s := HandleUnlock(reports, recalcFrom, Ok(last.(locked := false)));
      FirstUnlocked(s.reports) == s.recalcFrom
  {
    var n := |reports|;
    var last := reports[n - 1];
    UnlockTouchesOnlyLast(reports, recalcFrom);
    var s := HandleUnlock(reports, recalcFrom, Ok(last.(locked := false)));
    assert s.reports[n - 1] == last.(locked := false);
    var m := FirstUnlocked(s.reports);
    assert forall i :: 0 <= i < n - 1 ==> s.reports[i] == reports[i];
  }

  /** On a chained ledger month indexes are positions, so the start is the
      position of the earliest unlocked report. */
  lemma RecalcStartIsEarliestUnlocked(reports: seq<Report>, k: int)
    requires ChainedLedger(reports)
    requires 0 <= k < |reports| && !reports[k].locked
    requires forall i :: 0 <= i < k ==> reports[i].locked
    ensures FirstUnlocked(reports) == Some(k)
  {
  }

  // ------------------------------------------------------------ totals

  /** `reports.reduce((a, r) => a + r.whole_hours, 0)` */
  function TotalWholeHours(reports: seq<Report>): int {
    if |reports| == 0 then 0 else TotalWholeHours(reports[..|reports| - 1]) + reports[|reports| - 1].wholeHours
  }

  /** The last report's leftover minutes, or 0 for an empty year. */
  function FinalLeftover(reports: seq<Report>): int {
    if |reports| > 0 then reports[|reports| - 1].leftoverMinutes else 0
  }

  /** The preaching minutes aggregated over the year's reports. */
  function SumTotalMinutes(reports: seq<Report>): int {
    if |reports| == 0 then 0 else SumTotalMinutes(reports[..|reports| - 1]) + reports[|reports| - 1].totalMinutes
  }

  lemma ChainedPrefix(reports: seq<Report>, n: int)
    requires ChainedLedger(reports) && 0 <= n <= |reports|
    ensures ChainedLedger(reports[..n])
  {
  }

  /** No minute is lost or invented by the carry-over: the whole hours of all
      reports, read as minutes, plus the final leftover are exactly the preaching
      minutes of the year. */
  lemma {:induction false} TotalsAccountForEveryMinute(reports: seq<Report>)
    requires ChainedLedger(reports)
    ensures TotalWholeHours(reports) * MinutesPerHour + FinalLeftover(reports) == SumTotalMinutes(reports)
  {
    var n := |reports|;
    if n > 0 {
      var init := reports[..n - 1];
      ChainedPrefix(reports, n - 1);
      TotalsAccountForEveryMinute(init);
      var last := reports[n - 1];
      assert ConsistentReport(last);
      assert last.carriedInMinutes == FinalLeftover(init) by {
        if n > 1 {
          assert init[n - 2] == reports[n - 2];
          assert ConsistentReport(reports[n - 2]);
        }
      }
    }
  }

  /** The final leftover the page shows is what the next report will carry in. */
  lemma FinalLeftoverIsNextCarry(reports: seq<Report>)
    requires ChainedLedger(reports)
    ensures FinalLeftover(reports) == CarryIn(reports)
  {
    if |reports| > 0 {
      assert ConsistentReport(reports[|reports| - 1]);
    }
  }

  // ------------------------------------------------------------ comments

  /** The comment dialog's save: the matching report gets the new text (an empty
      text clears it); nothing but comments changes anywhere. */
  function EditComments(reports: seq<Report>, id: string, text: string): (r: seq<Report>)
    ensures |r| == |reports|
    ensures forall i :: 0 <= i < |r| ==> r[i].(comments := reports[i].comments) == reports[i]
    ensures forall i :: 0 <= i < |r| && reports[i].id != id ==> r[i] == reports[i]
    ensures forall i :: 0 <= i < |r| && reports[i].id == id ==>
              r[i].comments == (if text == "" then None else Some(text))
  {
    seq(|reports|, i requires 0 <= i < |reports| =>
      if reports[i].id == id then reports[i].(comments := if text == "" then None else Some(text))
      else reports[i])
  }

  /** Editing comments keeps a chained ledger chained. */
  lemma EditCommentsKeepsChain(reports: seq<Report>, id: string, text: string)
    requires ChainedLedger(reports)
    ensures ChainedLedger(EditComments(reports, id, text))
  {
    var r := EditComments(reports, id, text);
    forall i | 0 <= i < |r|
      ensures r[i].monthIndex == reports[i].monthIndex && r[i].carriedInMinutes == reports[i].carriedInMinutes
      ensures ConsistentReport(r[i]) && r[i].carriedOutMinutes == reports[i].carriedOutMinutes
    {
      assert r[i].(comments := reports[i].comments) == reports[i];
      assert ConsistentReport(reports[i]);
    }
  }
}

=== FILE: statistics.dfy ===
/** The statistics page: the theocratic year of "now", the minutes a row counts
    for, the yearly preaching and sacred-service totals, the month selection of
    the school dialog, the number of months elapsed, and the maintenance of the
    school-hours list. */
module Statistics {

  import opened Types
  import opened JsText
  import opened CivilDate
  import opened Entries
  import Reports
  import ActivityModal

  // ------------------------------------------------------------ the year

  datatype TheocraticYear = TheocraticYear(startYear: int, start: Date, end: Date)

  /** `getTheocraticYear`: the September-based year holding `now`, with its first
      day and the first day of the next year. */
  function GetTheocraticYear(now: Date): (y: TheocraticYear)
    ensures y.startYear == Reports.TheocraticYearBase(now)
    ensures y.start == Reports.MonthRange(y.startYear, 0).start
    ensures y.end == Reports.MonthRange(y.startYear, Reports.MonthsPerYear - 1).end
    ensures now.day >= 1 ==> NotAfter(y.start, now) && Before(now, y.end)
  {
    var startYear := if now.month >= 8 then now.year else now.year - 1;
    TheocraticYear(startYear, Date(startYear, 8, 1), Date(startYear + 1, 8, 1))
  }

  // ------------------------------------------------------------ minutes of a row

  /** `sh * 60 + sm` over the `Number` fields of a stored time; a missing or
      non-numeric field makes it NaN. */
  function TimeValue(t: string): (r: JsNumber)
    ensures r.Num? <==> NumberOf(Split(t, ':')[0]).Num? && FieldOrNaN(Split(t, ':'), 1).Num?
  {
    var parts := Split(t, ':');
    var h := NumberOf(parts[0]);
    var m := FieldOrNaN(parts, 1);
    if h.Num? && m.Num? then Num(h.value * 60 + m.value) else NaN
  }

  /** `coerce`: the stored minutes when there are any; otherwise the positive
      difference of the two times (a NaN or non-positive one counts 0); otherwise 0. */
  function Coerce(row: ActivityEntry): (r: int)
    ensures row.minutes.Some? ==> r == row.minutes.value
    ensures row.minutes.None? ==> r >= 0
    ensures row.minutes.None? && !(PresentText(row.startTime) && PresentText(row.endTime)) ==> r == 0
    ensures row.minutes.None? && PresentText(row.startTime) && PresentText(row.endTime)
            && TimeValue(row.startTime.value).Num? && TimeValue(row.endTime.value).Num? ==>
      r == Max0(TimeValue(row.endTime.value).value - TimeValue(row.startTime.value).value)
    ensures row.minutes.None? && PresentText(row.startTime) && PresentText(row.endTime)
            && !(TimeValue(row.startTime.value).Num? && TimeValue(row.endTime.value).Num?) ==>
      r == 0
  {
    if row.minutes.Some? then row.minutes.value
    else if PresentText(row.startTime) && PresentText(row.endTime) then
      var s := TimeValue(row.startTime.value);
      var e := TimeValue(row.endTime.value);
      if s.Num? && e.Num? && e.value - s.value > 0 then e.value - s.value else 0
    else 0
  }

  function Max0(x: int): int {
    if x > 0 then x else 0
  }

  /** A stored `HH:MM:00` reads back as its minutes since midnight. */
  lemma TimeValueOfClockText(h: int, m: int)
    requires 0 <= h < 100 && 0 <= m < 100
    ensures TimeValue(ClockText(h, m)) == Num(h * 60 + m)
  {
    ClockTextFields(h, m);
    Pad2RoundTrip(h);
    Pad2RoundTrip(m);
  }

  /** The row the activity dialog writes for two time inputs, read back by the
      statistics page, counts the minutes between them: no minutes are stored,
      and the range the dialog accepted is positive. */
  lemma SavedPreachingCountsItsRange(userId: string, id: string, date: Date, f: ActivityModal.Form,
                                     sh: int, sm: int, eh: int, em: int)
    requires 0 <= sh < 100 && 0 <= sm < 100 && 0 <= eh < 100 && 0 <= em < 100
    requires f.startTime == HourMinuteText(sh, sm) && f.endTime == HourMinuteText(eh, em)
    requires ActivityModal.Validate(Some(date), ActivityModal.PreachingDialog, f).None?
    ensures var p := ActivityModal.BuildPayload(userId, Some(date), ActivityModal.PreachingDialog, f);
            var row := ActivityEntry(id, date, p.kind, None, p.title, p.personId, p.startTime, p.endTime);
            Coerce(row) == (eh * 60 + em) - (sh * 60 + sm) && Coerce(row) > 0
  {
    ActivityModal.AcceptedRangeIsPositive(date, sh, sm, eh, em, f);
    assert f.startTime + ":00" == ClockText(sh, sm);
    assert f.endTime + ":00" == ClockText(eh, em);
    TimeValueOfClockText(sh, sm);
    TimeValueOfClockText(eh, em);
  }

  // ------------------------------------------------------------ yearly totals

  /** The coerced minutes of the rows of one kind. */
  function KindMinutes(rows: seq<ActivityEntry>, kind: ActivityKind): int {
    if |rows| == 0 then 0
    else
      var e := rows[|rows| - 1];
      KindMinutes(rows[..|rows| - 1], kind) + (if e.kind == kind then Coerce(e) else 0)
  }

  /** The coerced minutes of every row. */
  function AllMinutes(rows: seq<ActivityEntry>): int {
    if |rows| == 0 then 0 else AllMinutes(rows[..|rows| - 1]) + Coerce(rows[|rows| - 1])
  }

  /** The coerced minutes of the rows that are neither preaching nor sacred service. */
  function OtherMinutes(rows: seq<ActivityEntry>): int {
    if |rows| == 0 then 0
    else
      var e := rows[|rows| - 1];
      OtherMinutes(rows[..|rows| - 1]) + (if e.kind != Preaching && e.kind != SacredService then Coerce(e) else 0)
  }

  /** The preaching and sacred-service totals are taken over disjoint filters:
      with the remaining rows they account for every row exactly once. */
  lemma {:induction false} TotalsPartitionRows(rows: seq<ActivityEntry>)
    ensures KindMinutes(rows, Preaching) + KindMinutes(rows, SacredService) + OtherMinutes(rows) == AllMinutes(rows)
  {
    if |rows| > 0 {
      TotalsPartitionRows(rows[..|rows| - 1]);
    }
  }

  /** Sacred-service rows never reach the preaching total. */
  lemma {:induction false} SacredRowsLeavePreachingTotal(rows: seq<ActivityEntry>, sacred: seq<ActivityEntry>)
    requires forall e :: e in sacred ==> e.kind == SacredService
    ensures KindMinutes(rows + sacred, Preaching) == KindMinutes(rows, Preaching)
  {
    if |sacred| > 0 {
      var init := sacred[..|sacred| - 1];
      assert (rows + sacred)[..|rows + sacred| - 1] == rows + init;
      assert sacred[|sacred| - 1] in sacred;
      SacredRowsLeavePreachingTotal(rows, init);
    } else {
      assert rows + sacred == rows;
    }
  }

  // ------------------------------------------------------------ month selection

  /** The month index selected in the school dialog, forced into 0..11. */
  function ClampMonthIndex(idx: int): (r: int)
    ensures 0 <= r < Reports.MonthsPerYear
    ensures 0 <= idx < Reports.MonthsPerYear ==> r == idx
    ensures idx < 0 ==> r == 0
    ensures idx >= Reports.MonthsPerYear ==> r == Reports.MonthsPerYear - 1
  {
    if idx < 0 then 0 else if idx > 11 then 11 else idx
  }

  /** The selected index for a date: its month distance from the start of the year. */
  function SelectedMonthIndex(year: TheocraticYear, d: Date): (r: int)
    ensures 0 <= r < Reports.MonthsPerYear
    ensures year.start.month == Reports.TheocraticStartMonth ==>
              r == ClampMonthIndex(Reports.MonthIndexFromDate(year.start.year, d))
  {
    var idx := (d.year - year.start.year) * 12 + (d.month - year.start.month);
    ClampMonthIndex(idx)
  }

  /** The school date saved for a selected index: the first day of that month. */
  function SchoolDate(year: TheocraticYear, idx: int): (d: Date)
    ensures d.day == 1
    ensures MonthOrdinal(d) == MonthOrdinal(year.start) + idx
  {
    FirstOfMonth(year.start.year, year.start.month + idx)
  }

  /** Opening a school record of the current year and saving it again keeps its
      month; "now" is always selected unclamped. */
  lemma SchoolMonthRoundTrip(now: Date, d: Date)
    requires d.day >= 1 && now.day >= 1
    requires Reports.InTheocraticYear(d, GetTheocraticYear(now).startYear)
    ensures var y := GetTheocraticYear(now);
            SchoolDate(y, SelectedMonthIndex(y, d)) == Date(d.year, d.month, 1)
    ensures var y := GetTheocraticYear(now);
            SelectedMonthIndex(y, now) == Reports.MonthIndexFromDate(y.startYear, now)
  {
    var y := GetTheocraticYear(now);
    Reports.TheocraticYearUnique(d, y.startYear);
  }

  // ------------------------------------------------------------ months elapsed

  /** The months of the year whose first day is not after `now`: the current
      month's index plus one within the year, 0 before it and 12 after it. */
  function ElapsedCount(startYear: int, now: Date): (n: int)
    ensures 0 <= n <= Reports.MonthsPerYear
  {
    var i := Reports.MonthIndexFromDate(startYear, now);
    if i < 0 then 0 else if i >= Reports.MonthsPerYear then Reports.MonthsPerYear else i + 1
  }

  /** A month starts on or before a date exactly when its index is at most the
      date's month index. */
  lemma MonthStartNotAfter(startYear: int, k: int, d: Date)
    requires d.day >= 1
    ensures NotAfter(Reports.MonthRange(startYear, k).start, d) <==> k <= Reports.MonthIndexFromDate(startYear, d)
  {
    var s := Reports.MonthRange(startYear, k).start;
    OrdinalOrder(s, d);
    OrdinalOrder(d, s);
  }

  /** The closed form counts exactly the month starts of the year that are not
      after `now`. */
  lemma ElapsedCountCountsMonthStarts(startYear: int, now: Date, k: int)
    requires now.day >= 1 && 0 <= k < Reports.MonthsPerYear
    ensures k < ElapsedCount(startYear, now) <==> NotAfter(Reports.MonthRange(startYear, k).start, now)
  {
    MonthStartNotAfter(startYear, k, now);
  }

  /** Within its own year, "now" has seen its month index plus one months. */
  lemma ElapsedInOwnYear(now: Date)
    requires now.day >= 1
    ensures var y := GetTheocraticYear(now).startYear;
            ElapsedCount(y, now) == Reports.MonthIndexFromDate(y, now) + 1
  {
  }

  /** One pass of the `monthsElapsed` loop: a month start before the year's end
      and not after `now` is one more elapsed month, and the next start is the
      following month's. */
  lemma ElapsedStep(year: TheocraticYear, now: Date, count: int, cur: Date)
    requires year.end == Date(year.startYear + 1, 8, 1) && now.day >= 1
    requires 0 <= count <= Reports.MonthsPerYear
    requires cur == Reports.MonthRange(year.startYear, count).start
    requires Before(cur, year.end) && NotAfter(cur, now)
    ensures count < Reports.MonthsPerYear && count + 1 <= ElapsedCount(year.startYear, now)
    ensures FirstOfMonth(cur.year, cur.month + 1) == Reports.MonthRange(year.startYear, count + 1).start
  {
    OrdinalOrder(cur, year.end);
    MonthStartNotAfter(year.startYear, count, now);
  }

  /** `monthsElapsed`: walk the month starts of the year while they are before
      its end and not after `now`. */
  method MonthsElapsed(year: TheocraticYear, now: Date) returns (count: int)
    requires year.start == Date(year.startYear, 8, 1) && year.end == Date(year.startYear + 1, 8, 1)
    requires now.day >= 1
    ensures count == ElapsedCount(year.startYear, now)
  {
    count := 0;
    var cur := FirstOfMonth(year.start.year, year.start.month);
    while Before(cur, year.end) && NotAfter(cur, now)
      invariant 0 <= count <= Reports.MonthsPerYear
      invariant cur == Reports.MonthRange(year.startYear, count).start
      invariant count <= ElapsedCount(year.startYear, now)
      decreases Reports.MonthsPerYear - count
    {
      ElapsedStep(year, now, count, cur);
      count := count + 1;
      cur := FirstOfMonth(cur.year, cur.month + 1);
    }
    OrdinalOrder(cur, year.end);
    MonthStartNotAfter(year.startYear, count, now);
  }

  // ------------------------------------------------------------ school hours

  const TitleRequired := "Título requerido"
  const HoursNotPositiveInteger := "Horas debe ser entero > 0"

  /** `Number.isInteger` of a finite number. */
  predicate IsInteger(x: real) {
    x == x.Floor as real
  }

  /** The checks of `handleSaveSchool` before any write. */
  function ValidateSchool(title: string, hours: real): (error: Option<string>)
    ensures error.None? <==> !AllSpace(title) && hours > 0.0 && IsInteger(hours)
    ensures AllSpace(title) ==> error == Some(TitleRequired)
    ensures !AllSpace(title) && error.Some? ==> error == Some(HoursNotPositiveInteger)
  {
    TrimEmptyIff(title);
    if Trim(title) == "" then Some(TitleRequired)
    else if hours <= 0.0 || !IsInteger(hours) then Some(HoursNotPositiveInteger)
    else None
  }

  /** A row of `school_hours`. */
  datatype SchoolRow = SchoolRow(id: string, schoolDate: Date, hours: int, title: string)

  /** Ordered by `school_date`, latest first. */
  predicate SortedLatestFirst(rows: seq<SchoolRow>) {
    forall i, j :: 0 <= i < j < |rows| ==> !Before(rows[i].schoolDate, rows[j].schoolDate)
  }

  /** One row put after every row that is not earlier than it. */
  function InsertByDate(sorted: seq<SchoolRow>, x: SchoolRow): (r: seq<SchoolRow>)
    ensures |r| == |sorted| + 1
    ensures multiset(r) == multiset(sorted) + multiset{x}
    ensures SortedLatestFirst(sorted) ==> SortedLatestFirst(r)
  {
    if |sorted| == 0 then [x]
    else if Before(sorted[0].schoolDate, x.schoolDate) then [x] + sorted
    else
      var rest := InsertByDate(sorted[1..], x);
      var r := [sorted[0]] + rest;
      assert sorted == [sorted[0]] + sorted[1..];
      if SortedLatestFirst(sorted) then
        InsertStepSorted(sorted, x, rest);
        r
      else r
  }

  /** The step of `InsertByDate` that keeps the first row in front. */
  lemma InsertStepSorted(sorted: seq<SchoolRow>, x: SchoolRow, rest: seq<SchoolRow>)
    requires |sorted| > 0 && SortedLatestFirst(sorted)
    requires !Before(sorted[0].schoolDate, x.schoolDate)
    requires SortedLatestFirst(rest)
    requires multiset(rest) == multiset(sorted[1..]) + multiset{x}
    ensures SortedLatestFirst([sorted[0]] + rest)
  {
    var r := [sorted[0]] + rest;
    forall j | 1 <= j < |r| ensures !Before(r[0].schoolDate, r[j].schoolDate) {
      assert r[j] in multiset(rest);
      if r[j] != x {
        assert r[j] in sorted[1..];
      }
    }
  }

  /** `sort((a, b) => b.school_date.localeCompare(a.school_date))`, as an
      insertion sort: latest first, the same rows. */
  function SortByDate(rows: seq<SchoolRow>): (r: seq<SchoolRow>)
    ensures SortedLatestFirst(r)
    ensures multiset(r) == multiset(rows)
  {
    if |rows| == 0 then []
    else
      var init := rows[..|rows| - 1];
      assert rows == init + [rows[|rows| - 1]];
      InsertByDate(SortByDate(init), rows[|rows| - 1])
  }

  /** The rows with the edited one replaced by the stored reply. */
  function ReplaceSchoolRow(rows: seq<SchoolRow>, id: string, reply: SchoolRow): (r: seq<SchoolRow>)
    ensures |r| == |rows|
    ensures forall i :: 0 <= i < |r| ==> r[i] == (if rows[i].id == id then reply else rows[i])
  {
    if |rows| == 0 then []
    else [if rows[0].id == id then reply else rows[0]] + ReplaceSchoolRow(rows[1..], id, reply)
  }

  /** The list after a saved school record: the reply replaces the edited row, or
      is appended to the list, and the list is sorted latest first. */
  function AfterSchoolSave(rows: seq<SchoolRow>, editing: Option<string>, reply: SchoolRow): (r: seq<SchoolRow>)
    ensures SortedLatestFirst(r)
    ensures editing.None? ==> multiset(r) == multiset(rows) + multiset{reply}
    ensures editing.Some? ==> multiset(r) == multiset(ReplaceSchoolRow(rows, editing.value, reply))
    ensures editing.Some? ==> forall x :: x in r ==> x == reply || (x in rows && x.id != editing.value)
  {
    if editing.Some? then
      var replaced := ReplaceSchoolRow(rows, editing.value, reply);
      var r := SortByDate(replaced);
      assert forall x :: x in r ==> x in multiset(replaced);
      r
    else
      SortByDate(rows + [reply])
  }

  /** `prev.filter((r) => r.id !== id)`. */
  function DeleteSchoolRow(rows: seq<SchoolRow>, id: string): (r: seq<SchoolRow>)
    ensures forall x :: x in r <==> x in rows && x.id != id
    ensures |r| <= |rows|
    ensures SortedLatestFirst(rows) ==> SortedLatestFirst(r)
  {
    if |rows| == 0 then []
    else
      var rest := DeleteSchoolRow(rows[1..], id);
      assert rows == [rows[0]] + rows[1..];
      if rows[0].id == id then rest
      else
        var r := [rows[0]] + rest;
        assert SortedLatestFirst(rows) ==> SortedLatestFirst(r) by {
          if SortedLatestFirst(rows) {
            forall j | 1 <= j < |r| ensures !Before(r[0].schoolDate, r[j].schoolDate) {
              assert r[j] in rest;
            }
          }
        }
        r
  }

  /** The same filter as `DeleteSchoolRow` without its contract, so that proofs
      about joined lists need not carry the contract's quantifiers. */
  function KeptRows(rows: seq<SchoolRow>, id: string): seq<SchoolRow> {
    if |rows| == 0 then []
    else (if rows[0].id == id then [] else [rows[0]]) + KeptRows(rows[1..], id)
  }

  lemma EmptyConcat(x: seq<SchoolRow>)
    ensures [] + x == x
  {
  }

  lemma ConcatAssoc(x: seq<SchoolRow>, y: seq<SchoolRow>, z: seq<SchoolRow>)
    ensures x + (y + z) == (x + y) + z
  {
  }

  lemma {:induction false} KeptRowsDistribute(a: seq<SchoolRow>, b: seq<SchoolRow>, id: string)
    ensures KeptRows(a + b, id) == KeptRows(a, id) + KeptRows(b, id)
  {
    if |a| == 0 {
      assert a + b == b;
    } else {
      var head := if a[0].id == id then [] else [a[0]];
      calc {
        KeptRows(a + b, id);
      == { assert (a + b)[0] == a[0]; assert (a + b)[1..] == a[1..] + b; }
        head + KeptRows(a[1..] + b, id);
      == { KeptRowsDistribute(a[1..], b, id); }
        head + (KeptRows(a[1..], id) + KeptRows(b, id));
      == { ConcatAssoc(head, KeptRows(a[1..], id), KeptRows(b, id)); }
        KeptRows(a, id) + KeptRows(b, id);
      }
    }
  }

  /** `DeleteSchoolRow` and its contract-free copy agree. */
  lemma {:induction false} DeleteIsKeptRows(rows: seq<SchoolRow>, id: string)
    ensures DeleteSchoolRow(rows, id) == KeptRows(rows, id)
  {
    if |rows| > 0 {
      var rest := rows[1..];
      DeleteIsKeptRows(rest, id);
      if rows[0].id == id {
        assert KeptRows(rows, id) == [] + KeptRows(rest, id);
        EmptyConcat(KeptRows(rest, id));
      }
    }
  }

  /** The filter works row by row: deleting from two lists joined is deleting
      from each and joining the results, so the kept rows stay in their order. */
  lemma DeleteDistributes(a: seq<SchoolRow>, b: seq<SchoolRow>, id: string)
    ensures DeleteSchoolRow(a + b, id) == DeleteSchoolRow(a, id) + DeleteSchoolRow(b, id)
  {
    DeleteIsKeptRows(a + b, id);
    DeleteIsKeptRows(a, id);
    DeleteIsKeptRows(b, id);
    KeptRowsDistribute(a, b, id);
  }

  /** On one row the filter keeps it exactly when its id differs; with
      `DeleteDistributes` this fixes the result of every list, row by row. */
  lemma DeleteSingle(row: SchoolRow, id: string)
    ensures DeleteSchoolRow([row], id) == if row.id == id then [] else [row]
  {
    DeleteIsKeptRows([row], id);
    assert [row][1..] == [];
  }

  /** Deleting twice removes nothing more. */
  lemma {:induction false} DeleteIdempotent(rows: seq<SchoolRow>, id: string)
    ensures DeleteSchoolRow(DeleteSchoolRow(rows, id), id) == DeleteSchoolRow(rows, id)
  {
    if |rows| > 0 {
      DeleteIdempotent(rows[1..], id);
      var rest := DeleteSchoolRow(rows[1..], id);
      if rows[0].id != id {
        assert ([rows[0]] + rest)[1..] == rest;
      }
    }
  }
}

=== FILE: types.dfy ===
/** Small value types shared by every module: JavaScript's nullable values and
    the outcome of an operation that can fail with a message. */
module Types {

  /** A value that may be `null`/`undefined` in the original program. */
  datatype Option<T> = None | Some(value: T) {

    /** `x ?? d` */
    function GetOr(d: T): T {
      match this
      case Some(v) => v
      case None => d
    }
  }

  /** The outcome of an operation that either yields a value or stops with an error. */
  datatype Result<T, E> = Ok(value: T) | Err(error: E)
}
